=== FILE: README.md ===
# A verified model of the fresh-ui admin CRUD engine

The admin area of fresh-ui is driven by one declarative entity description
(`EntityConfig`, with one `FieldConfig` per field). From it the engine builds
seven request handlers: list, show, create form, create submission, edit form,
edit submission and delete. A generic form renders and posts the records, and
three entity services (articles, site settings, users) turn service calls into
HTTP requests.

This project models that engine as pure Dafny functions and proves what it
promises.

- **Values.** `JsValue.Value` covers null, undefined, strings, integers, NaN,
  booleans, objects and arrays. JavaScript truthiness is spelled out, as are
  `String(v)` and property reads that throw on null.
- **Field types and flags.** `AdminTypes` holds the closed set of eleven field
  types and the optional flags, whose absence is a third state. It also holds
  the entity and field descriptors and the pagination and list shapes.
- **Handlers.** `CrudHandlers` writes each handler as a function of:
  - the entity description;
  - the request (cookie, query, route parameters, posted form);
  - the remote service's answers, as a function from call number to
    "returned a value" or "threw";
  - the platform's `JSON.parse`, `JSON.stringify` and `atob`.

  Each handler returns the outcome together with the trace of calls made on
  the service object. "Redirects and makes no call" can therefore be stated
  directly.
- **Pieces of the handlers.** `Auth` models the cookie gate and the `authorId`
  fill. `FieldCodec` models the per-type form decoding. `Validation` models the
  collect-all validation pass. `JsText` holds `String(n)`, `parseInt` and
  `includes`.
- **Cross-handler properties.** `HandlerProperties` states them: the
  authentication gate, the client binding before every remote call, the
  defaults, and the redirect targets.
- **The form.** `GenericForm` models which fields are shown, which widget each
  type gets and what each widget displays. `FormSubmission` models what a
  browser posts for an untouched widget, following the HTML Living Standard:
  - value sanitization of text, email and number inputs (section 4.10.5.1);
  - the leading newline a text area's content drops (section 13.2.6.4.7);
  - single-select selectedness (section 4.10.7);
  - the CR LF rewriting of every posted value when the form data is
    converted to name-value pairs (section 4.10.21), which can change
    only text area contents and select option values here.

  `FormRoundTrip` joins rendering and decoding and proves, for each field
  type, which values survive a render-and-submit trip unchanged.
- **Services.** `EntityServices` models the three services as request
  builders over a current client. `EngineServices` replays a handler's call
  trace on a service.

Behaviours the model makes explicit:

- The form shows a field unless `showInForm` is `false`. The decoder keeps
  only fields whose `showInForm` is truthy. A field with the flag absent is
  therefore shown, but what is typed into it is dropped.
- A required number field posted as "0", or as text without a digit, decodes
  to 0 or NaN. Both are falsy, so the field is reported missing.
- The users service reads `limit`, not the `pageSize` the list handler passes.
  The users list therefore never forwards the page size.
- In the edit submission's failure path, the record is fetched again. A throw
  from that second fetch is not caught, and the model records it as an
  unhandled outcome.
- In the create submission's failure path, the handler reads the request
  body a second time, outside any `try`. The first read consumed the body, so
  the second read rejects and the error goes uncaught. The evident intent is to
  show the form again with the error message. `CrudHandlers.CreatePost` models
  that intent, and `CrudHandlers.CreatePostAsWritten` models the code (see
  "## Findings"). In the intended version the values shown differ from those
  sent only under `authorId`, because the form is decoded again without the
  `authorId` fill.
- For an error reply the API client throws a plain `{message, status}`
  object, not an `Error` instance, and the handlers then fall back to
  their generic messages. A network failure or an unreadable reply body
  rejects with an `Error`, whose message the handlers show. The list
  handler's "Unauthorized"/"401" login redirect fires only for `Error`
  instances, and the model keeps that distinction (`Thrown`: `ErrorObj` or
  `NonError`).

## Model

| member | source | states |
|---|---|---|
| AdminTypes.TypeOfTag | lib/admin/types.ts:6-17 | a tag is read as a field type only if that type is written with exactly that tag |
| AdminTypes.FieldTypesAreClosed | lib/admin/types.ts:6-17 | every field type's tag reads back as that type; exactly eleven distinct tags name types, and no other text does |
| JsValue.FalsyValues | lib/admin/crud-handlers.ts:192 | a value is falsy exactly when it is `null`, `undefined`, `NaN`, `""`, `0` or `false`; every object and array is truthy |
| JsValue.ToJsString | lib/admin/crud-handlers.ts:228 | `String(v)` keeps a string as it is; a number's text reads back through `parseInt` as that number; the text is empty only for `""` or an array |
| JsValue.TextOrEmpty | components/admin/GenericForm.tsx:337 | `String(v \|\| "")` is empty for every falsy value and is the string itself for a string |
| JsValue.Prop | lib/admin/crud-handlers.ts:158 | a property read fails exactly on null and undefined, and yields the stored property of an object that has it |
| JsText.ParseInt | lib/admin/crud-handlers.ts:172 | a non-empty run of decimal digits parses to the number it denotes, and text without any decimal digit parses to NaN |
| JsText.IntToString | lib/admin/crud-handlers.ts:228 | an integer's text is never empty and starts with `-` exactly for a negative number |
| JsText.ParseIntOfIntToString | lib/admin/crud-handlers.ts:91 | `parseInt(String(n))` is `n` for every integer, negative ones included |
| JsText.IntToStringInjective | lib/admin/crud-handlers.ts:228 | distinct integer ids print as distinct path segments |
| JsText.ParseIntOfDigitPair | lib/admin/crud-handlers.ts:28 | a two-digit text parses to ten times its first digit plus its second |
| JsText.ContainsInfix | lib/admin/crud-handlers.ts:46-47 | `includes` finds a text wherever it is placed between two others |
| Auth.ScanToken | lib/admin/crud-handlers.ts:16 | the scan finds nothing exactly when no index holds `auth_token=` followed by a non-`;` character; otherwise it captures the run after the leftmost such index, up to the next `;` |
| Auth.ExtractToken | lib/admin/crud-handlers.ts:15-16 | a missing cookie header is read as empty; the token is found exactly when the pattern matches; a token found is non-empty, has no `;`, and is the leftmost match's capture |
| Auth.SecondSegment | lib/admin/crud-handlers.ts:156 | the payload segment is missing exactly when the token has no dot, and a segment found holds no dot |
| Auth.DecodeUserId | lib/admin/crud-handlers.ts:153-161 | the user id is truthy or null. A payload that is not base64 gives null. A payload that parses to a non-null value gives its `userId` when truthy, else its `id` when truthy, else null. Parsing to null or undefined also gives null |
| Auth.TokenUserIdBecomesAuthor | lib/admin/crud-handlers.ts:154-158 | a token whose payload carries a non-zero numeric `userId` makes that number the record's `authorId` when the entity has that field |
| Auth.FillAuthor | lib/admin/crud-handlers.ts:184-187 | `authorId` is overwritten with the user id exactly when the id is truthy and some configured field is named `authorId`; every other key is kept as it was, and nothing else is added |
| Auth.MalformedTokenLeavesDataUnchanged | lib/admin/crud-handlers.ts:159-161 | when the token's payload is not base64, the submitted data is left exactly as decoded and no failure is raised |
| FieldCodec.FormGet | lib/admin/crud-handlers.ts:167 | `form.get` finds a value exactly when something was posted under the name |
| FieldCodec.ParseIntValue | lib/admin/crud-handlers.ts:172 | the parsed value is an integer when `parseInt` finds digits and NaN otherwise |
| FieldCodec.ListFallbackValues | lib/admin/crud-handlers.ts:27-28 | the fallback texts "1" and "20" parse to the numbers 1 and 20 |
| FieldCodec.DecodeField | lib/admin/crud-handlers.ts:169-181 | boolean is `raw == "on"` and never null; number is null exactly when the raw value is missing or empty, and otherwise `parseInt`'s integer when it finds digits and NaN when it does not; json is null for a missing or empty raw value, the parsed value when `JSON.parse` succeeds, and the raw text when it fails; every other type passes the raw text through, null when absent |
| FieldCodec.DecodeForm | lib/admin/crud-handlers.ts:164-182 | the decoded record has a key for exactly the fields whose `showInForm` is truthy |
| FieldCodec.DecodeFormKeepsLast | lib/admin/crud-handlers.ts:164-182 | the value under a name is the decoding of the last truthy-`showInForm` field with that name |
| Validation.CustomError | lib/admin/crud-handlers.ts:196-198 | a custom check counts only when the field has one and its message is non-empty |
| Validation.FieldError | lib/admin/crud-handlers.ts:191-199 | a required field with a falsy value gets "<label> is required"; any other error comes from the custom check and only for a truthy value, so the two never both apply |
| Validation.CheckFieldRecordsFieldError | lib/admin/crud-handlers.ts:191-199 | the two checks run in sequence record exactly the field's one error message, or nothing |
| Validation.ValidateAll | lib/admin/crud-handlers.ts:190-200 | every configured field is visited, form field or not; the error map's keys are exactly the names of failing fields, and no message is empty |
| Validation.ValidateAllKeepsLast | lib/admin/crud-handlers.ts:190-200 | the message kept under a name is that of the last failing field with that name |
| Validation.ValidationPassesIff | lib/admin/crud-handlers.ts:202 | the error map is empty exactly when no field has an error |
| Validation.MissingRequiredReported | lib/admin/crud-handlers.ts:192-193 | a uniquely named required field whose value is falsy is reported as missing, whatever the other fields report |
| CrudHandlers.Token | lib/admin/crud-handlers.ts:15-16 | a request has a token exactly when its cookie header holds `auth_token=` followed by a non-`;` character; the token is non-empty and holds no `;` |
| CrudHandlers.ErrorText | lib/admin/crud-handlers.ts:64-66 | an `Error` shows its own message; any other thrown value shows the fallback text |
| CrudHandlers.AuthRejections | lib/admin/crud-handlers.ts:44-48 | an `Error` whose message contains "Unauthorized" or "401" anywhere is a rejection; a non-`Error` throw never is, nor is an `Error` with an empty message |
| CrudHandlers.QueryNumber | lib/admin/crud-handlers.ts:27 | a present, non-empty query value is parsed with `parseInt`; a missing or empty one falls back to parsing the default text |
| CrudHandlers.RouteText | lib/admin/crud-handlers.ts:408 | a route identifier prints as itself, and a missing one as "undefined" |
| CrudHandlers.ResolveIdArg | lib/admin/crud-handlers.ts:90-94 | the identifier is numeric (the route text parsed) exactly when the id field is `id`, and is otherwise the route text itself |
| CrudHandlers.ResolveIdArgInvertsRecordPath | lib/admin/crud-handlers.ts:91 | a printed numeric id resolves back to the same number, and a key resolves to itself |
| CrudHandlers.FetchRecord | lib/admin/crud-handlers.ts:90-94 | a lookup makes at most one fetch call, with the resolved identifier; it makes none exactly when the service lacks the needed method, in which case it throws an `Error` |
| CrudHandlers.List | lib/admin/crud-handlers.ts:14-70 | without a token: the login redirect and no call. With one: a binding then one list call with the query's page and page size, and a successful call returns its items together with those same two parsed numbers. It redirects to login exactly when there is no token or the call throws an `Error` mentioning "Unauthorized" or "401"; any other throw gives the empty pagination {1, 20, 0, 0} and the error text |
| CrudHandlers.LoadRecord | lib/admin/crud-handlers.ts:84-107 | bind, then fetch by the route identifier; there is no notice exactly when the record is truthy; a falsy record gives "<singular> not found", a throw gives its message, and the item is then null |
| CrudHandlers.Show | lib/admin/crud-handlers.ts:73-120 | the login redirect without a token; otherwise the show page, with a notice exactly when no truthy record came back; the first call binds the token's client and at most one call is remote |
| CrudHandlers.CreateGet | lib/admin/crud-handlers.ts:123-135 | no call is made; it redirects exactly when there is no token and otherwise shows the empty form |
| CrudHandlers.SubmittedData | lib/admin/crud-handlers.ts:164-187 | the record sent has only decoded form keys plus `authorId`; it agrees with the decoded form on every key but `authorId`; and it carries the token's user id there when that id is truthy and the entity has the field |
| CrudHandlers.RouteIdOf | lib/admin/crud-handlers.ts:218-222 | a falsy result gives null; otherwise, without `getRouteParam`, the result's id property |
| CrudHandlers.CreateRedirect | lib/admin/crud-handlers.ts:224-237 | a truthy identifier leads to `/admin/<name>/<identifier>`; otherwise, a falsy result included, the redirect goes to `/admin/<name>` |
| CrudHandlers.CreatePost | lib/admin/crud-handlers.ts:138-274 | the create handler as intended. With errors: the errors and the submitted data, and no call. Without errors: bind, then one create call with the data. A returned result redirects to `CreateRedirect`. A throw shows the form again, exactly when validation passed, with the throw's message and the form decoded afresh |
| CrudHandlers.CreatePostAsWritten | lib/admin/crud-handlers.ts:238-242 | the same calls as `CreatePost` and the same outcome on every path but one. Where `CreatePost` shows the form again, the program as written ends in the uncaught error of the second body read |
| CrudHandlers.CreateFailureRereadsConsumedBody | lib/admin/crud-handlers.ts:242 | a valid submission whose create call throws ends, as written, in the uncaught body-read error; the intended handler shows the error message with the form decoded afresh |
| CrudHandlers.EditGet | lib/admin/crud-handlers.ts:277-326 | the login redirect without a token; otherwise the edit page with an empty error map and a notice exactly when no truthy record came back |
| CrudHandlers.EditRecover | lib/admin/crud-handlers.ts:411-433 | binds again and re-fetches: a returned record is shown with the failure's message, and a throw from the re-fetch is not caught; the binding is kept, at most one remote call is added, and no update |
| CrudHandlers.EditRejected | lib/admin/crud-handlers.ts:379-397 | on validation failure: no update call and at most two remote calls; when the record fetch returns, that record is shown with exactly the errors; when it throws, the catch block takes over (bind again, fetch again, show the record with the fetch's error message, or an uncaught throw if the second fetch throws too), and the validation errors are lost |
| CrudHandlers.EditSubmit | lib/admin/crud-handlers.ts:399-410 | on validation success: bind, then update with the resolved identifier and the data; success redirects to `/admin/<name>/<route id>`; failure goes through `EditRecover` |
| CrudHandlers.EditPost | lib/admin/crud-handlers.ts:329-434 | the login redirect without a token; otherwise, depending on whether validation of the decoded form finds errors, the rejected or submitted path, with at most two remote calls |
| CrudHandlers.Delete | lib/admin/crud-handlers.ts:437-470 | bind, then delete by the resolved identifier, then always go back to `/admin/<name>` |
| HandlerProperties.AuthGate | lib/admin/crud-handlers.ts:15-23 | every one of the seven handlers answers with the login redirect and no call exactly when the cookie header has no `auth_token=` followed by a non-`;` character |
| HandlerProperties.LoginRedirectMeansRejection | lib/admin/crud-handlers.ts:44-53 | with a token, a handler redirects to the login page exactly when it is the list handler and the list call threw an `Error` mentioning "Unauthorized" or "401"; every other redirect goes to an entity page |
| HandlerProperties.ClientBoundBeforeRemoteCalls | lib/admin/crud-handlers.ts:30-31 | with a token, every handler's first call binds a client made from that token, every binding uses that token, and at most two calls are remote |
| HandlerProperties.DeleteIgnoresRemote | lib/admin/crud-handlers.ts:459-469 | delete's response is the same whatever the remote service answers, and it is the list redirect |
| HandlerProperties.NumberZeroDecodesFalsy | lib/admin/crud-handlers.ts:171-172 | a number field posted as "0", or as text without a digit, decodes to a falsy value |
| HandlerProperties.RequiredNumberZeroReportedMissing | lib/admin/crud-handlers.ts:192-193 | a required number field posted as "0", or as text without a digit, makes create report "<label> is required" and call nothing |
| HandlerProperties.NumericIdRedirect | lib/admin/crud-handlers.ts:218-228 | a result whose numeric `id` is non-zero leads to `/admin/<name>/<printed id>` |
| HandlerProperties.CreateRedirectsToNewRecord | lib/admin/crud-handlers.ts:215-231 | with validation passing and the service returning a record whose numeric `id` is non-zero, create redirects to that record's page |
| HandlerProperties.ShowFetchesRoutedId | lib/admin/crud-handlers.ts:85-91 | the show page reached through a numeric record's path fetches that same numeric id |
| HandlerProperties.EditUpdateFailureKeepsRecord | lib/admin/crud-handlers.ts:411-432 | when the update throws and the re-fetch succeeds, the edit page shows the re-fetched record and the failure's message |
| HandlerProperties.EditRejectedFetchFailureDropsErrors | lib/admin/crud-handlers.ts:379-432 | when a rejected edit's record fetch throws and the second fetch returns, the edit page shows that record with the first fetch's error message and no validation errors |
| HandlerProperties.ListForwardsQueryPage | lib/admin/crud-handlers.ts:27-33 | a page number written in the query is the page the list call asks for and the page the list page reports |
| HandlerProperties.ListDefaults | lib/admin/crud-handlers.ts:27-28 | without `page` or `pageSize` in the query, the list call asks for page 1 with 20 per page |
| HandlerProperties.CreateFailureValuesAgreeExceptAuthor | lib/admin/crud-handlers.ts:241-262 | after a failed create in the intended handler (`CreatePost`), the values shown agree with the data sent on every key except `authorId` |
| GenericForm.FormFields | components/admin/GenericForm.tsx:18 | the form keeps exactly the fields whose `showInForm` is not `false`, and no others |
| GenericForm.FormFieldsAppend | components/admin/GenericForm.tsx:18 | the filter distributes over concatenation, so the shown fields keep their configuration order |
| GenericForm.CurrentValue | components/admin/GenericForm.tsx:20-25 | with a truthy item, the field's value is `item[fieldName]`: the stored property of an object, undefined when it has none; without an item, every field's value is undefined |
| GenericForm.NumberText | components/admin/GenericForm.tsx:175 | a number input is empty for null and undefined and shows an integer's decimal text, so 0 shows "0" |
| GenericForm.JsonText | components/admin/GenericForm.tsx:302-304 | an object or array shows as pretty-printed JSON; anything else follows `String(v \|\| "")` |
| GenericForm.RenderOptions | components/admin/GenericForm.tsx:105-113 | one option per configured option, in list order, with the value's text and the label; an option is selected exactly when the current value strictly equals its value |
| GenericForm.TypedWidget | components/admin/GenericForm.tsx:56-353 | the widget kind follows the type table. A checkbox is checked exactly when the value is truthy. Number, text and email inputs show their display texts. A long-text area shows `String(v \|\| "")` and a JSON area shows `JsonText`. Text areas default to 4 rows (6 for JSON), and a JSON area always has a placeholder. A select lists the rendered options and has the blank option exactly when the field is not required |
| GenericForm.RenderField | components/admin/GenericForm.tsx:27-54 | in edit mode the id field is a locked box that submits nothing, checked before the type dispatch; otherwise the field submits under its name, shows the error exactly when one is present and non-empty, shows help only when there is no error, and marks required exactly when `required` is true. A submitting field's widget is the type table's widget for the record's value of that field; the locked box shows that value as `String(v \|\| "")` with the "ID cannot be changed" or "Key cannot be changed" note |
| GenericForm.RenderItems | components/admin/GenericForm.tsx:359-368 | one item per field, in order, full width exactly for `text` and `json` |
| GenericForm.RenderForm | components/admin/GenericForm.tsx:356-384 | one item per shown field; a cancel link to `/admin/<name>`; the submit label is "Save Changes" when editing and "Create <singular>" otherwise |
| FormSubmission.StripNewlines | components/admin/GenericForm.tsx:331-337 | a text input posts its value without any CR or LF, and text without line breaks unchanged |
| FormSubmission.StripSurroundingSpace | components/admin/GenericForm.tsx:201-207 | an email input posts its value without surrounding ASCII whitespace, and text already unpadded unchanged |
| FormSubmission.IntegerTextIsFloatText | components/admin/GenericForm.tsx:169-175 | an integer's decimal text is a valid floating-point number, so a number input keeps it |
| FormSubmission.FractionNeedsDigitsAfterTheDot | components/admin/GenericForm.tsx:169-175 | a number input keeps ".5" and "-.5" but clears "5." and "." |
| FormSubmission.TextAreaContent | components/admin/GenericForm.tsx:66-74 | a text area's parsed content is the text as written whenever the text does not start with a line break |
| FormSubmission.CrLf | components/admin/GenericForm.tsx:66-74 | the CR LF rewriting of a posted value leaves text without line breaks unchanged |
| FormSubmission.LastSelected | components/admin/GenericForm.tsx:104-113 | nothing is found exactly when no option is selected; what is found is the value of a selected option |
| FormSubmission.SelectSubmits | components/admin/GenericForm.tsx:99-114 | a select posts nothing exactly when it has no option at all |
| FormSubmission.NothingSelectedSubmitsFirst | components/admin/GenericForm.tsx:104-109 | with no option selected, a select posts "" when it has the blank option, else its first option |
| FormSubmission.AgreeingSelectionSubmits | components/admin/GenericForm.tsx:104-109 | when some option is selected and all selected options carry one value, the select posts that value |
| FormSubmission.SubmittedRaw | components/admin/GenericForm.tsx:35-53 | the locked id posts nothing; a checkbox posts "on" exactly when checked; a text input posts its text with CR and LF removed, and an email input also strips surrounding white space; a number input posts its text when that is a valid floating-point number (integer digits optional before a fraction) and "" otherwise; a text area posts its content with line breaks as CR LF; a select posts nothing exactly when it has no options, and otherwise the value its selectedness picks with line breaks as CR LF |
| FormRoundTrip.NumberRoundTrip | components/admin/GenericForm.tsx:175 | an integer shown in a number field comes back unchanged, 0 included; null, undefined and NaN come back as null |
| FormRoundTrip.SelectTextRoundTrip | components/admin/GenericForm.tsx:105-109 | a string value that is one of the select's options comes back with its line breaks as CR LF, so unchanged when it has none |
| FormRoundTrip.SelectNumberComesBackAsText | components/admin/GenericForm.tsx:108-109 | a numeric option value comes back as its decimal text, which selects no numeric option when shown again |
| FormRoundTrip.RequiredSelectFallsBackToFirstOption | components/admin/GenericForm.tsx:104-109 | a required select whose value matches no option comes back as the first option's text with its line breaks as CR LF (that text itself when it has none) |
| FormRoundTrip.OptionalSelectFallsBackToBlank | components/admin/GenericForm.tsx:104 | an optional select whose value matches no option comes back as "" |
| FormRoundTrip.PlainTextRoundTrip | components/admin/GenericForm.tsx:331-337 | single-line text in a `string`, `status` or `badge` field comes back unchanged |
| FormRoundTrip.EmailRoundTrip | components/admin/GenericForm.tsx:201-207 | an email without line breaks or surrounding whitespace comes back unchanged |
| FormRoundTrip.LongTextRoundTrip | components/admin/GenericForm.tsx:66-74 | single-line long text comes back unchanged |
| FormRoundTrip.LongTextLineFeedBecomesCrLf | components/admin/GenericForm.tsx:66-74 | a line feed inside long text comes back as CR LF |
| FormRoundTrip.FalsyTextBecomesEmpty | components/admin/GenericForm.tsx:337 | a falsy value in a text-like field comes back as "" |
| FormRoundTrip.CheckboxRoundTrip | components/admin/GenericForm.tsx:138 | a checkbox comes back as the truthiness of the shown value, so a boolean survives |
| FormRoundTrip.JsonRoundTrip | components/admin/GenericForm.tsx:302-304 | an object or array shown as JSON comes back as itself when the platform's JSON reads its own text back |
| FormRoundTrip.JsonTextRoundTrip | components/admin/GenericForm.tsx:302-304 | single-line non-JSON text in a JSON field comes back as the same text |
| FormRoundTrip.LockedIdPostsNothing | components/admin/GenericForm.tsx:35-46 | in edit mode the id field posts nothing, and a decoded field of that name reads null (false for a boolean) |
| FormRoundTrip.EditFormPostsRecordValue | components/admin/GenericForm.tsx:20-28 | in edit mode every field other than the id submits under its name, and what it posts decodes to what the field's widget posts back for the record's own value of that field |
| FormRoundTrip.EditFormKeepsRecordText | components/admin/GenericForm.tsx:20-28 | a record's single-line text in a text field, shown in the edit form, is posted back and decoded as the same text |
| FormRoundTrip.ShownButNotDecoded | components/admin/GenericForm.tsx:18 | a field with `showInForm` absent is shown by the form, yet gets no key in the decoded record |
| FormRoundTrip.FormAndDecoderDisagreeOnAbsentFlag | components/admin/GenericForm.tsx:18 | every field the decoder reads is also shown, and the form shows a field the decoder skips exactly when that field leaves `showInForm` out |
| EntityServices.QueryPairs | entities/articles/article.service.ts:36-46 | one `key=value` pair per truthy parameter among the service's keys, with the value's text; no pair for a falsy parameter |
| EntityServices.QueryKeys | entities/users/user.service.ts:36-41 | every service reads `page` first and no key twice; articles and site settings read `pageSize`, and users read `limit` instead |
| EntityServices.QueryPairsAgree | entities/articles/article.service.ts:36-46 | only the parameters the service reads affect the query |
| EntityServices.QueryPairsAppend | entities/articles/article.service.ts:36-46 | pairs follow key order: the pairs of two key lists in sequence are the first list's pairs followed by the second's |
| EntityServices.EncodeQuery | entities/articles/article.service.ts:48 | the query text is empty exactly when there are no pairs |
| EntityServices.ListRequestPath | entities/articles/article.service.ts:48-49 | the list path is the base path alone exactly when no parameter the service reads is truthy; otherwise it is the base path, `?` and the query |
| EntityServices.ParseRecordPath | entities/articles/article.service.ts:57-61 | an identifier read back from a path gives that path when placed after the base path and `/` |
| EntityServices.BasePath | entities/articles/article.service.ts:18 | each collection path is one segment under `/ts-admin/`, with no further `/` and no `?` |
| EntityServices.RecordAndListPathsDiffer | entities/site_settings/site-setting.service.ts:56-60 | a record path reads back its identifier, and no list path reads as a record path |
| EntityServices.Perform | entities/articles/article.service.ts:17-98 | only `setClient` changes the service, and only its client; every request goes out on the current client; `getByKey` is missing from all three services, and `bulkDelete` from all but articles |
| EntityServices.RequestTargets | entities/articles/article.service.ts:57-98 | getById, update and delete address a record path that reads back to their identifier. List and create address the collection, which reads as no record. GET is used for reads, PUT for update and DELETE for delete; every other call is a POST. Only create, update and bulkDelete send a body; create and update send their input, and bulkDelete sends `{ids}` to `/ts-admin/articles/bulk-delete` |
| EntityServices.Run | entities/site_settings/site-setting.service.ts:16-25 | one effect per call; the service kind never changes; without `setClient` the service is unchanged |
| EntityServices.LaterRequestsUseNewClient | entities/articles/article.service.ts:24-26 | after `setClient(c)`, every request up to the next `setClient` goes out on `c` |
| EntityServices.RequestsUseClient | entities/site_settings/site-setting.service.ts:23-25 | without `setClient`, every request goes out on the service's own client |
| EntityServices.RequestsStayOnClient | entities/users/user.service.ts:23-25 | starting on `c`, with every `setClient` installing `c` again, every request goes out on `c` |
| EntityServices.EngineListPairs | lib/admin/crud-handlers.ts:33 | the handlers' `{page, pageSize}` gives a `page` pair when page is truthy, then, for articles and site settings only, a `pageSize` pair when pageSize is truthy |
| EntityServices.UsersIgnorePageSize | entities/users/user.service.ts:30-46 | the users list path depends on `page` alone: `/ts-admin/users?page=<page>` when page is truthy, `/ts-admin/users` otherwise |
| EntityServices.ListPathWithPairs | entities/site_settings/site-setting.service.ts:47-48 | with at least one pair the path is the base path, `?` and the encoded pairs |
| EntityServices.TruthyListPath | entities/site_settings/site-setting.service.ts:37-48 | with truthy page and page size, articles and site settings send `page=…&pageSize=…` and users send only `page=…` |
| EngineServices.IdArgument | lib/admin/crud-handlers.ts:91-93 | a numeric identifier is passed as its number, or NaN when it did not parse; a key is passed as its text, or undefined when the route has none |
| EngineServices.ToOp | lib/admin/crud-handlers.ts:30-31 | a binding becomes `setClient` with a client made from that token, and no other call does |
| EngineServices.HandlerRequestsCarryToken | lib/admin/crud-handlers.ts:30-33 | whatever client the service held before, every request caused by a handler's trace goes out on the client made from the request's token |
| EngineServices.UsersListTrace | entities/users/user.service.ts:30-46 | the list trace on the users service sends one GET on the token's client, whose path carries the page and never the page size |
| EngineServices.UsersListRequest | lib/admin/crud-handlers.ts:27-33 | the list handler on the users service sends one GET on the token's client, whose path carries the page and never the page size |

## Left out

- The HTTP transport of `lib/api.ts` is not part of this model. A client is represented only by the token it was made with. Remote answers are a supplied function from call number to outcome.
- Login, the admin layout and the route pages are markup and wiring, with no behaviour of their own here.
- `JSON.parse`, `JSON.stringify` and `atob` are uninterpreted functions of a `Platform` value. `JSON.parse` and `atob` return None when they throw.
- Form submission also rewrites line breaks in field names as CR LF. The model posts each field under its configured name unchanged, which differs only for a field name that holds a line break.
- Date and datetime inputs: their `new Date(...).toISOString()` formatting is not modelled. The widget only records the value it would format, and the round-trip lemmas exclude those two types. A `Date` that throws during rendering is not modelled.
- URL encoding of query values is not modelled. Pairs are joined as `key=value` text.
- `parseInt` works on unbounded integers. Precision loss beyond 2^53 is not modelled.
- The white space `parseInt` skips is the ASCII set plus no-break space and the byte-order mark. The other Unicode space separators (U+1680, U+2000 to U+200A, U+202F, U+205F, U+3000) and the line terminators U+2028 and U+2029 are not skipped, so `?page=%E2%80%A85` reads as page 5 in JavaScript but as NaN here.
- HTML constraint validation (`required`, email syntax, number step) can stop the browser from submitting. It is not modelled: the form-submission model assumes the form is posted.
- Concurrency is not modelled. That includes requests racing on the shared service object's `setClient`. One request is handled at a time.
- Console logging, CSS classes, placeholders as shown text and the JSX structure are not modelled.
- The request body is a posted form that the first `formData()` read decodes. A request whose first read fails, such as one without a form body, is not modelled.
- `CrudHandlers.BodyAlreadyRead` is the `TypeError` of reading a consumed body a second time. Its message text belongs to the runtime and is not asserted.
- HandlerProperties.CreateFailureValuesAgreeExceptAuthor: is about the intended create handler. As written, the program never shows these values: its failure path ends in the uncaught error of the second body read (`CreatePostAsWritten`).
- Numbers are integers plus NaN. Fractional numbers, such as a price of 9.99 from the API, are not modelled. A number input would show "9.99", and `parseInt` would send back 9 when the form is submitted.
- JsValue.Prop: reads only an object's own stored properties. Strings, arrays and inherited properties read as `undefined`. So `data["constructor"]`, which JavaScript finds on every object, is not modelled, and neither is its effect on a required field of that name.
- The `render`/`format` display functions and the `canCreate`/`canEdit`/`canDelete`/`canView` flags are kept as data but never consulted. The handlers and the form do not read them.
- A field's `validate` function and the entity's `getRouteParam` are total functions in the model. A throw from either is not modelled.
- The list and show pages that display the handler results are not modelled.
- JsText.ParseInt: its contract covers a bare run of decimal digits and text with no digit at all. Signed integers are covered by ParseIntOfIntToString. Leading white space, trailing text and `0x` prefixes are in the definition, but no lemma states a property about them.
- FormRoundTrip.LongTextRoundTrip: covers single-line text only. Multi-line text comes back with CR LF line breaks (LongTextLineFeedBecomesCrLf) and may lose one leading line break.
- FormRoundTrip.JsonRoundTrip: assumes the platform's `JSON.parse` reads back `JSON.stringify`'s output after the text area's line-break rewriting, because both functions are uninterpreted.
- FormRoundTrip.PlainTextRoundTrip: covers text without line breaks, because a text input strips CR and LF.
- CrudHandlers.RouteIdOf: with `getRouteParam` configured, the identifier is whatever that function returns. No property of it is stated.

## Findings

| source | as written | input that shows it | evidently intended | confidence | as-written member | corrected member |
|---|---|---|---|---|---|---|
| lib/admin/crud-handlers.ts:242 | the create failure path calls `ctx.req.formData()` again, outside any `try`, after line 150 already consumed the body, so the read rejects with a `TypeError` that nobody catches | any valid create submission whose `service.create` call throws, for example an API error reply | show the form again with the error message and the submitted values, as the comment at line 241 says | high; not executed | CrudHandlers.CreatePostAsWritten, CrudHandlers.CreateFailureRereadsConsumedBody | CrudHandlers.CreatePost |

=== FILE: admin_types.dfy ===
/** The declarative entity description that drives every admin screen:
    field types, field descriptors, entity descriptors, and the pagination
    and list-response shapes of the remote service. Display transforms that
    produce markup (`render`, `format`) are not part of this model. */
module AdminTypes {
  import opened Options
  import opened JsValue

  /** The closed set of field type tags. */
  datatype FieldType =
    | StringType
    | NumberType
    | BooleanType
    | DateType
    | DateTimeType
    | TextType
    | EmailType
    | SelectType
    | JsonType
    | StatusType
    | BadgeType

  /** The tag each type is written as in a configuration. */
  function TypeTag(t: FieldType): string {
    match t
    case StringType => "string"
    case NumberType => "number"
    case BooleanType => "boolean"
    case DateType => "date"
    case DateTimeType => "datetime"
    case TextType => "text"
    case EmailType => "email"
    case SelectType => "select"
    case JsonType => "json"
    case StatusType => "status"
    case BadgeType => "badge"
  }

  const AllTags: seq<string> :=
    ["string", "number", "boolean", "date", "datetime", "text", "email", "select", "json", "status", "badge"]

  /** The field type a tag names, if it names one. */
  function TypeOfTag(tag: string): (r: Option<FieldType>)
    ensures r.Some? ==> TypeTag(r.value) == tag
  {
    match tag
    case "string" => Some(StringType)
    case "number" => Some(NumberType)
    case "boolean" => Some(BooleanType)
    case "date" => Some(DateType)
    case "datetime" => Some(DateTimeType)
    case "text" => Some(TextType)
    case "email" => Some(EmailType)
    case "select" => Some(SelectType)
    case "json" => Some(JsonType)
    case "status" => Some(StatusType)
    case "badge" => Some(BadgeType)
    case _ => None
  }

  /** Exactly eleven distinct tags are field types, and every type has
      one of them. */
  lemma FieldTypesAreClosed(t: FieldType, tag: string)
    ensures TypeOfTag(TypeTag(t)) == Some(t)
    ensures TypeOfTag(tag).Some? <==> tag in AllTags
    ensures |AllTags| == 11
    ensures forall i, j | 0 <= i < j < |AllTags| :: AllTags[i] != AllTags[j]
  {
  }

  /** An optional boolean flag read with JavaScript truthiness (`field.required`):
      only an explicit `true` counts. */
  predicate FlagSet(flag: Option<bool>) {
    flag == Some(true)
  }

  /** An optional flag read as `flag !== false`: absence counts as set. */
  predicate FlagNotFalse(flag: Option<bool>) {
    flag != Some(false)
  }

  /** The two readings of an optional flag disagree exactly when it is absent. */
  lemma FlagReadingsDifferOnAbsence(flag: Option<bool>)
    ensures FlagSet(flag) ==> FlagNotFalse(flag)
    ensures FlagNotFalse(flag) && !FlagSet(flag) <==> flag.None?
  {
    if flag.Some? && flag.value {
      assert FlagSet(flag);
    }
  }

  /** A select option's value: a string or a number. */
  datatype OptionValue = OptionStr(s: string) | OptionNum(n: int) {
    function ToValue(): (v: Value)
      ensures v.Str? || v.Num?
    {
      match this
      case OptionStr(s) => Str(s)
      case OptionNum(n) => Num(n)
    }
  }

  /** One `{value, label}` entry of a select field, kept in list order. */
  datatype SelectOption = SelectOption(value: OptionValue, labelText: string)

  /** A field's custom check: a message, or None (`undefined`) when valid. */
  type Validator = Value -> Option<string>

  datatype FieldConfig = FieldConfig(
    name: string,
    labelText: string,
    ftype: FieldType,
    sortable: Option<bool>,
    searchable: Option<bool>,
    showInList: Option<bool>,
    showInShow: Option<bool>,
    showInForm: Option<bool>,
    required: Option<bool>,
    options: Option<seq<SelectOption>>,
    placeholder: Option<string>,
    helpText: Option<string>,
    rows: Option<int>,
    validate: Option<Validator>)

  /** Which optional lookup methods the entity's service object provides;
      `list`, `create`, `update`, `delete` and `setClient` are always there. */
  datatype ServiceMethods = ServiceMethods(hasGetById: bool, hasGetByKey: bool)

  datatype EntityConfig = EntityConfig(
    name: string,
    singularName: string,
    pluralName: string,
    apiPath: string,
    idField: string,
    fields: seq<FieldConfig>,
    service: ServiceMethods,
    listTitle: Option<string>,
    createTitle: Option<string>,
    editTitle: Option<string>,
    showTitle: Option<string>,
    displayField: Option<string>,
    descriptionField: Option<string>,
    canCreate: Option<bool>,
    canEdit: Option<bool>,
    canDelete: Option<bool>,
    canView: Option<bool>,
    isSystemRecord: Option<Value -> bool>,
    getRouteParam: Option<Value -> Value>)

  datatype Pagination = Pagination(page: int, pageSize: int, total: int, totalPages: int)

  datatype ListResponse = ListResponse(success: bool, data: seq<Value>, pagination: Pagination)
}

=== FILE: auth.dfy ===
/** The session-cookie gate every handler runs first, and the best-effort
    recovery of the caller's user id from the token's payload segment. */
module Auth {
  import opened Options
  import opened JsText
  import opened JsValue
  import opened AdminTypes

  const TokenKey: string := "auth_token="

  /** The pattern `auth_token=([^;]+)` can match at index `i`: the key
      starts there and is followed by at least one character other than `;`. */
  predicate TokenAt(cookie: string, i: int) {
    && 0 <= i
    && i + |TokenKey| < |cookie|
    && cookie[i..i + |TokenKey|] == TokenKey
    && cookie[i + |TokenKey|] != ';'
  }

  /** The captured token when the leftmost match is at index `i`. */
  function TokenFrom(cookie: string, i: int): (r: string)
    requires 0 <= i && i + |TokenKey| <= |cookie|
    ensures ';' !in r
    ensures TokenAt(cookie, i) ==> r != ""
  {
    RunUntil(cookie[i + |TokenKey|..], ';')
  }

  /** Scans for the leftmost match at or after index `from`. */
  function ScanToken(cookie: string, from: nat): (r: Option<string>)
    requires from <= |cookie|
    ensures r.None? <==> forall i | from <= i < |cookie| :: !TokenAt(cookie, i)
    ensures r.Some? ==> r.value != "" && ';' !in r.value
    ensures r.Some? ==> exists i | from <= i < |cookie| ::
      && TokenAt(cookie, i)
      && (forall j | from <= j < i :: !TokenAt(cookie, j))
      && r.value == TokenFrom(cookie, i)
    decreases |cookie| - from
  {
    if from == |cookie| then None
    else if TokenAt(cookie, from) then Some(TokenFrom(cookie, from))
    else ScanToken(cookie, from + 1)
  }

  /** The token the cookie header carries: the first match of
      `auth_token=([^;]+)` in the header, an absent header read as empty.
      A token, when found, is non-empty and holds no `;`. */
  function ExtractToken(cookieHeader: Option<string>): (r: Option<string>)
    ensures r.None? <==> forall i | 0 <= i < |cookieHeader.GetOr("")| :: !TokenAt(cookieHeader.GetOr(""), i)
    ensures r.Some? ==> r.value != "" && ';' !in r.value
    ensures r.Some? ==> exists i | 0 <= i < |cookieHeader.GetOr("")| ::
      && TokenAt(cookieHeader.GetOr(""), i)
      && (forall j | 0 <= j < i :: !TokenAt(cookieHeader.GetOr(""), j))
      && r.value == TokenFrom(cookieHeader.GetOr(""), i)
  {
    ScanToken(cookieHeader.GetOr(""), 0)
  }

  /** `token.split(".")[1]`: the text between the first and second dot,
      None (`undefined`) when the token has no dot. */
  function SecondSegment(token: string): (r: Option<string>)
    ensures r.None? <==> '.' !in token
    ensures r.Some? ==> '.' !in r.value
  {
    var head := RunUntil(token, '.');
    if |head| == |token| then
      assert head == token;
      None
    else
      Some(RunUntil(token[|head| + 1..], '.'))
  }

  /** The user id the token's payload names: `decoded.userId ||
      decoded.id || null`, or `null` when the segment is not base64, not
      JSON, or decodes to `null`/`undefined` (each of which throws in
      JavaScript and is caught). */
  function DecodeUserId(token: string, p: Platform): (r: Value)
    ensures Truthy(r) || r == Null
    ensures p.atob(SecondSegment(token).GetOr("undefined")).None? ==> r == Null
    ensures forall text, decoded |
      && p.atob(SecondSegment(token).GetOr("undefined")) == Some(text)
      && p.jsonParse(text) == Some(decoded) ::
        if Nullish(decoded) then r == Null
        else
          var userId := Prop(decoded, "userId").value;
          var id := Prop(decoded, "id").value;
          r == if Truthy(userId) then userId else if Truthy(id) then id else Null
  {
    var segment := SecondSegment(token);
    // `atob(undefined)` converts its argument to the text "undefined".
    match p.atob(segment.GetOr("undefined"))
    case None => Null
    case Some(text) =>
      match p.jsonParse(text)
      case None => Null
      case Some(decoded) =>
        match Prop(decoded, "userId")
        case None => Null
        case Some(userId) =>
          if Truthy(userId) then userId
          else
            var id := Prop(decoded, "id").GetOr(Undefined);
            if Truthy(id) then id else Null
  }

  const AuthorKey: string := "authorId"

  /** Some configured field, shown in the form or not, is named `authorId`. */
  predicate HasAuthorField(fields: seq<FieldConfig>) {
    exists i | 0 <= i < |fields| :: fields[i].name == AuthorKey
  }

  /** Overwrites `authorId` with the decoded user id when that id is truthy
      and the entity has an `authorId` field; otherwise the data is kept. */
  function FillAuthor(data: map<string, Value>, fields: seq<FieldConfig>, userId: Value): (r: map<string, Value>)
    ensures forall k | k in data && k != AuthorKey :: k in r && r[k] == data[k]
    ensures r.Keys <= data.Keys + {AuthorKey}
    ensures Truthy(userId) && HasAuthorField(fields) ==> AuthorKey in r && r[AuthorKey] == userId
    ensures !(Truthy(userId) && HasAuthorField(fields)) ==> r == data
  {
    if Truthy(userId) && HasAuthorField(fields) then data[AuthorKey := userId] else data
  }

  /** A token whose payload decodes to an object with a non-zero numeric
      `userId` makes that number the record's `authorId`, when the entity
      has such a field. */
  lemma TokenUserIdBecomesAuthor(token: string, p: Platform, data: map<string, Value>,
                                 fields: seq<FieldConfig>, text: string, props: map<string, Value>, n: int)
    requires p.atob(SecondSegment(token).GetOr("undefined")) == Some(text)
    requires p.jsonParse(text) == Some(Obj(props))
    requires "userId" in props && props["userId"] == Num(n) && n != 0
    requires HasAuthorField(fields)
    ensures AuthorKey in FillAuthor(data, fields, DecodeUserId(token, p))
    ensures FillAuthor(data, fields, DecodeUserId(token, p))[AuthorKey] == Num(n)
  {
    assert DecodeUserId(token, p) == Num(n);
  }

  /** A token whose payload cannot be decoded leaves the submitted data
      exactly as decoded: the failure is swallowed, never reported. */
  lemma MalformedTokenLeavesDataUnchanged(token: string, p: Platform, data: map<string, Value>, fields: seq<FieldConfig>)
    requires p.atob(SecondSegment(token).GetOr("undefined")).None?
    ensures FillAuthor(data, fields, DecodeUserId(token, p)) == data
  {
  }
}

=== FILE: crud_handlers.dfy ===
/** The seven request handlers the engine builds from one entity
    description: list, show, the create form and its submission, the edit
    form and its submission, and delete. Each handler is a function of the
    entity description, the request and the answers the remote service
    gives, and returns the outcome together with the trace of calls it made
    on the entity's service object. */
module CrudHandlers {
  import opened Options
  import opened JsText
  import opened JsValue
  import opened AdminTypes
  import opened FieldCodec
  import opened Validation
  import opened Auth

  /** The parts of an inbound request the handlers read: the cookie
      header, the query string, the route parameters and the posted form. */
  datatype Request = Request(
    cookie: Option<string>,
    query: map<string, string>,
    params: map<string, string>,
    form: FormData)

  /** A thrown value: an `Error` instance with its message, or anything
      else (the API client throws plain `{message, status}` objects). */
  datatype Thrown = ErrorObj(message: string) | NonError

  /** What one remote call does: resolve to a value or throw. */
  datatype Answer = Returned(value: Value) | Threw(thrown: Thrown)

  /** The remote service's behaviour for one request: the answer to the
      k-th remote call the handler makes. */
  type Remote = nat -> Answer

  /** The identifier a handler passes to the service: `parseInt` of the
      route parameter (None for `NaN`) when the id field is `id`, else the
      route parameter itself (None for `undefined`). */
  datatype RecordId = NumericId(n: Option<int>) | KeyId(key: Option<string>)

  /** One call on the entity's service object. `BindClient` is the
      `setClient` of a client made from the request's token; a `FetchCall`
      is `getById` for a numeric id and `getByKey` for a key. */
  datatype ServiceCall =
    | BindClient(token: string)
    | ListCall(page: Value, pageSize: Value)
    | FetchCall(id: RecordId)
    | CreateCall(data: map<string, Value>)
    | UpdateCall(id: RecordId, data: map<string, Value>)
    | DeleteCall(id: RecordId)

  datatype Outcome =
    | Redirect(location: string)
    | ListPage(items: Value, page: Value, pageSize: Value)
    | ListFailed(emptyList: ListResponse, error: string)
    | ShowPage(item: Value, notice: Option<string>)
    | CreateForm
    | CreateInvalid(errors: map<string, string>, values: map<string, Value>)
    | CreateFailed(error: string, values: map<string, Value>)
    | EditPage(item: Value, notice: Option<string>, errors: map<string, string>)
    | EditInvalid(item: Value, errors: map<string, string>)
    | EditFailed(item: Value, error: string)
    | Unhandled(thrown: Thrown)

  datatype Response = Response(outcome: Outcome, calls: seq<ServiceCall>)

  const LoginPath: string := "/auth/login"

  /** The 303 to the login page, with no call made. */
  const LoginRedirect: Response := Response(Redirect(LoginPath), [])

  function ListPath(cfg: EntityConfig): string {
    "/admin/" + cfg.name
  }

  function RecordPath(cfg: EntityConfig, id: string): string {
    ListPath(cfg) + "/" + id
  }

  /** No entity page is the login page: they differ in their third
      character. */
  lemma EntityPathsAreNotLogin(cfg: EntityConfig, id: string)
    ensures ListPath(cfg) != LoginPath && RecordPath(cfg, id) != LoginPath
  {
    assert ListPath(cfg)[2] == 'd' && RecordPath(cfg, id)[2] == 'd';
  }

  /** The request's session token, if its cookie carries one. */
  function Token(req: Request): (r: Option<string>)
    ensures r.None? <==> forall i | 0 <= i < |req.cookie.GetOr("")| :: !TokenAt(req.cookie.GetOr(""), i)
    ensures r.Some? ==> r.value != "" && ';' !in r.value
  {
    ExtractToken(req.cookie)
  }

  /** `error instanceof Error ? error.message : fallback`. */
  function ErrorText(e: Thrown, fallback: string): (text: string)
    ensures e.ErrorObj? ==> text == e.message
    ensures e.NonError? ==> text == fallback
  {
    match e
    case ErrorObj(m) => m
    case NonError => fallback
  }

  /** A thrown `Error` whose message mentions "Unauthorized" or "401". */
  predicate IsAuthRejection(e: Thrown) {
    e.ErrorObj? && (Contains(e.message, "Unauthorized") || Contains(e.message, "401"))
  }

  /** Any `Error` whose message has "Unauthorized" or "401" somewhere in it
      is a rejection; a plain object thrown by the API client never is, nor
      is an `Error` with an empty message. */
  lemma AuthRejections(before: string, after: string)
    ensures IsAuthRejection(ErrorObj(before + "Unauthorized" + after))
    ensures IsAuthRejection(ErrorObj(before + "401" + after))
    ensures !IsAuthRejection(NonError) && !IsAuthRejection(ErrorObj(""))
  {
    ContainsInfix(before, "Unauthorized", after);
    ContainsInfix(before, "401", after);
  }

  /** The zero-result list payload shown when listing fails. */
  const EmptyListResponse: ListResponse := ListResponse(false, [], Pagination(1, 20, 0, 0))

  /** `parseInt(url.searchParams.get(key) || fallback)`. */
  function QueryNumber(query: map<string, string>, key: string, fallback: string): (v: Value)
    ensures (key !in query || query[key] == "") ==> v == ParseIntValue(fallback)
    ensures key in query && query[key] != "" ==> v == ParseIntValue(query[key])
  {
    ParseIntValue(if key in query && query[key] != "" then query[key] else fallback)
  }

  /** `ctx.params[config.idField]`. */
  function RouteParam(cfg: EntityConfig, req: Request): Option<string> {
    if cfg.idField in req.params then Some(req.params[cfg.idField]) else None
  }

  /** `${identifier}` for a route parameter. */
  function RouteText(ident: Option<string>): (text: string)
    ensures ident.Some? ==> text == ident.value
    ensures ident.None? ==> text == "undefined"
  {
    ident.GetOr("undefined")
  }

  /** The identifier handed to the service for route parameter `ident`:
      numeric exactly when the id field is `id`. */
  function ResolveIdArg(cfg: EntityConfig, ident: Option<string>): (r: RecordId)
    ensures r.NumericId? <==> cfg.idField == "id"
    ensures r.NumericId? ==> r.n == ParseInt(RouteText(ident))
    ensures r.KeyId? ==> r.key == ident
  {
    // `parseInt(undefined)` reads the text "undefined".
    if cfg.idField == "id" then NumericId(ParseInt(RouteText(ident))) else KeyId(ident)
  }

  /** A numeric record's printed id, used as the route parameter, resolves
      back to that id; a key resolves to itself. */
  lemma ResolveIdArgInvertsRecordPath(cfg: EntityConfig, n: int, key: string)
    ensures cfg.idField == "id" ==> ResolveIdArg(cfg, Some(IntToString(n))) == NumericId(Some(n))
    ensures cfg.idField != "id" ==> ResolveIdArg(cfg, Some(key)) == KeyId(Some(key))
  {
    ParseIntOfIntToString(n);
  }

  datatype Fetched = Fetched(answer: Answer, calls: seq<ServiceCall>)

  /** `getById!(parseInt(identifier))` or `getByKey!(identifier)`, made as
      remote call number `k`. A lookup method the service lacks throws a
      `TypeError` at the call site, before anything is sent. */
  function FetchRecord(cfg: EntityConfig, ident: Option<string>, remote: Remote, k: nat): (r: Fetched)
    ensures r.calls == [] || r.calls == [FetchCall(ResolveIdArg(cfg, ident))]
    ensures r.calls == [] <==>
      (if cfg.idField == "id" then !cfg.service.hasGetById else !cfg.service.hasGetByKey)
    ensures r.calls != [] ==> r.answer == remote(k)
    ensures r.calls == [] ==> r.answer.Threw? && r.answer.thrown.ErrorObj?
  {
    var id := ResolveIdArg(cfg, ident);
    if id.NumericId? && !cfg.service.hasGetById then
      Fetched(Threw(ErrorObj("config.service.getById is not a function")), [])
    else if id.KeyId? && !cfg.service.hasGetByKey then
      Fetched(Threw(ErrorObj("config.service.getByKey is not a function")), [])
    else
      Fetched(remote(k), [FetchCall(id)])
  }

  /** Every client bound in the trace carries the request's token, and the
      trace starts by binding one. */
  predicate BoundToToken(calls: seq<ServiceCall>, token: string) {
    && (|calls| > 0 ==> calls[0] == BindClient(token))
    && forall i | 0 <= i < |calls| :: calls[i].BindClient? ==> calls[i].token == token
  }

  /** The number of calls in the trace that reach the remote service. */
  function RemoteCount(calls: seq<ServiceCall>): nat {
    if |calls| == 0 then 0 else RemoteCount(calls[..|calls| - 1]) + (if calls[|calls| - 1].BindClient? then 0 else 1)
  }

  predicate HasUpdate(calls: seq<ServiceCall>) {
    exists i | 0 <= i < |calls| :: calls[i].UpdateCall?
  }

  /** GET /admin/<name>: the paginated list, page 1 and 20 per page unless
      the query says otherwise. */
  function List(cfg: EntityConfig, req: Request, remote: Remote): (r: Response)
    ensures Token(req).None? ==> r == LoginRedirect
    ensures Token(req).Some? ==>
      r.calls == [BindClient(Token(req).value),
                  ListCall(QueryNumber(req.query, "page", "1"), QueryNumber(req.query, "pageSize", "20"))]
    ensures r.outcome.Redirect? <==> Token(req).None? || (remote(0).Threw? && IsAuthRejection(remote(0).thrown))
    ensures r.outcome.Redirect? ==> r.outcome.location == LoginPath
    ensures r.outcome.ListPage? ==>
      && remote(0) == Returned(r.outcome.items)
      && r.outcome.page == QueryNumber(req.query, "page", "1")
      && r.outcome.pageSize == QueryNumber(req.query, "pageSize", "20")
    ensures r.outcome.ListFailed? ==>
      && remote(0).Threw?
      && r.outcome.emptyList == EmptyListResponse
      && r.outcome.error == ErrorText(remote(0).thrown, "Failed to load " + cfg.pluralName)
    ensures r.outcome.Redirect? || r.outcome.ListPage? || r.outcome.ListFailed?
    ensures Token(req).Some? ==> BoundToToken(r.calls, Token(req).value) && RemoteCount(r.calls) == 1
  {
    match Token(req)
    case None => LoginRedirect
    case Some(token) =>
      var page := QueryNumber(req.query, "page", "1");
      var pageSize := QueryNumber(req.query, "pageSize", "20");
      var calls := [BindClient(token), ListCall(page, pageSize)];
      BindThenCall(token, calls[1]);
      match remote(0)
      case Returned(items) => Response(ListPage(items, page, pageSize), calls)
      case Threw(e) =>
        if IsAuthRejection(e) then Response(Redirect(LoginPath), calls)
        else Response(ListFailed(EmptyListResponse, ErrorText(e, "Failed to load " + cfg.pluralName)), calls)
  }

  datatype Loaded = Loaded(item: Value, error: Option<string>, calls: seq<ServiceCall>)

  /** The record lookup shared by show and the edit form: bind the
      request's client, fetch by the route identifier, and read a falsy
      record as "not found" and a throw as a message. */
  function LoadRecord(cfg: EntityConfig, req: Request, token: string, remote: Remote): (r: Loaded)
    ensures r.calls == [BindClient(token)] + FetchRecord(cfg, RouteParam(cfg, req), remote, 0).calls
    ensures BoundToToken(r.calls, token) && RemoteCount(r.calls) <= 1
    ensures r.error.None? <==> Truthy(r.item)
    ensures !Truthy(r.item) ==> r.item == Null
    ensures Truthy(r.item) ==> |r.calls| == 2 && remote(0) == Returned(r.item)
    ensures |r.calls| == 2 && remote(0).Returned? && !Truthy(remote(0).value) ==>
      r.error == Some(cfg.singularName + " not found")
    ensures |r.calls| == 2 && remote(0).Threw? ==>
      r.error == Some(ErrorText(remote(0).thrown, "Failed to load " + cfg.singularName))
  {
    var fetched := FetchRecord(cfg, RouteParam(cfg, req), remote, 0);
    var calls := [BindClient(token)] + fetched.calls;
    assert RemoteCount(calls) <= 1 by {
      RemoteCountAppend([BindClient(token)], fetched.calls);
      RemoteCountOne(BindClient(token));
      if fetched.calls != [] {
        RemoteCountOne(fetched.calls[0]);
      }
    }
    match fetched.answer
    case Returned(item) =>
      if !Truthy(item) then Loaded(Null, Some(cfg.singularName + " not found"), calls)
      else Loaded(item, None, calls)
    case Threw(e) => Loaded(Null, Some(ErrorText(e, "Failed to load " + cfg.singularName)), calls)
  }

  /** GET /admin/<name>/<id>. */
  function Show(cfg: EntityConfig, req: Request, remote: Remote): (r: Response)
    ensures Token(req).None? ==> r == LoginRedirect
    ensures Token(req).Some? ==>
      var loaded := LoadRecord(cfg, req, Token(req).value, remote);
      r == Response(ShowPage(loaded.item, loaded.error), loaded.calls)
    ensures Token(req).Some? ==> r.outcome.ShowPage? && (r.outcome.notice.None? <==> Truthy(r.outcome.item))
    ensures Token(req).Some? ==> BoundToToken(r.calls, Token(req).value) && RemoteCount(r.calls) <= 1
  {
    match Token(req)
    case None => LoginRedirect
    case Some(token) =>
      var loaded := LoadRecord(cfg, req, token, remote);
      Response(ShowPage(loaded.item, loaded.error), loaded.calls)
  }

  /** GET /admin/<name>/new: the empty form, no call made. */
  function CreateGet(cfg: EntityConfig, req: Request): (r: Response)
    ensures r.calls == []
    ensures Token(req).None? <==> r.outcome.Redirect?
    ensures Token(req).Some? ==> r.outcome == CreateForm
  {
    match Token(req)
    case None => LoginRedirect
    case Some(_) => Response(CreateForm, [])
  }

  /** The record `createPost` validates and sends: the decoded form with
      `authorId` filled from the token when it names a user. */
  function SubmittedData(cfg: EntityConfig, req: Request, token: string, p: Platform): (data: map<string, Value>)
    ensures data.Keys <= FormFieldNames(cfg.fields) + {AuthorKey}
    ensures forall k | k in FormFieldNames(cfg.fields) && k != AuthorKey ::
      k in data && data[k] == DecodeForm(cfg.fields, req.form, p)[k]
    ensures Truthy(DecodeUserId(token, p)) && HasAuthorField(cfg.fields) ==>
      AuthorKey in data && data[AuthorKey] == DecodeUserId(token, p)
  {
    FillAuthor(DecodeForm(cfg.fields, req.form, p), cfg.fields, DecodeUserId(token, p))
  }

  /** The identifier the create redirect uses: `getRouteParam(result)` when
      configured, else `result[idField]`, and `null` for a falsy result. */
  function RouteIdOf(cfg: EntityConfig, result: Value): (id: Value)
    ensures !Truthy(result) ==> id == Null
    ensures Truthy(result) && cfg.getRouteParam.None? ==> Some(id) == Prop(result, cfg.idField)
  {
    if !Truthy(result) then Null
    else match cfg.getRouteParam
      case Some(routeParam) => routeParam(result)
      case None => Prop(result, cfg.idField).GetOr(Undefined)
  }

  /** Where a successful create goes: the new record's page when its
      identifier is truthy, the list otherwise. */
  function CreateRedirect(cfg: EntityConfig, result: Value): (location: string)
    ensures Truthy(RouteIdOf(cfg, result)) ==> location == RecordPath(cfg, ToJsString(RouteIdOf(cfg, result)))
    ensures !Truthy(RouteIdOf(cfg, result)) ==> location == ListPath(cfg)
    ensures !Truthy(result) ==> location == ListPath(cfg)
  {
    var id := RouteIdOf(cfg, result);
    if Truthy(id) then RecordPath(cfg, ToJsString(id)) else ListPath(cfg)
  }

  /** POST /admin/<name>/new. */
  function CreatePost(cfg: EntityConfig, req: Request, remote: Remote, p: Platform): (r: Response)
    ensures Token(req).None? ==> r == LoginRedirect
    ensures Token(req).Some? ==>
      var data := SubmittedData(cfg, req, Token(req).value, p);
      var errors := ValidateAll(cfg.fields, data);
      && (|errors| > 0 ==> r == Response(CreateInvalid(errors, data), []))
      && (|errors| == 0 ==> r.calls == [BindClient(Token(req).value), CreateCall(data)])
    ensures Token(req).Some? && r.outcome.Redirect? ==>
      remote(0).Returned? && r.outcome.location == CreateRedirect(cfg, remote(0).value)
    ensures (Token(req).Some? && |ValidateAll(cfg.fields, SubmittedData(cfg, req, Token(req).value, p))| == 0
             && remote(0).Returned?) ==> r.outcome == Redirect(CreateRedirect(cfg, remote(0).value))
    ensures r.outcome.CreateFailed? ==>
      && remote(0).Threw?
      && r.outcome.error == ErrorText(remote(0).thrown, "Failed to create " + cfg.singularName)
      && r.outcome.values == DecodeForm(cfg.fields, req.form, p)
    ensures (Token(req).Some? && |ValidateAll(cfg.fields, SubmittedData(cfg, req, Token(req).value, p))| == 0
             && remote(0).Threw?) ==> r.outcome.CreateFailed?
    ensures r.outcome.Redirect? || r.outcome.CreateInvalid? || r.outcome.CreateFailed?
    ensures Token(req).Some? ==> BoundToToken(r.calls, Token(req).value) && RemoteCount(r.calls) <= 1
  {
    match Token(req)
    case None => LoginRedirect
    case Some(token) =>
      var data := SubmittedData(cfg, req, token, p);
      var errors := ValidateAll(cfg.fields, data);
      if |errors| > 0 then Response(CreateInvalid(errors, data), [])
      else
        var calls := [BindClient(token), CreateCall(data)];
        BindThenCall(token, calls[1]);
        match remote(0)
        case Returned(result) => Response(Redirect(CreateRedirect(cfg, result)), calls)
        case Threw(e) =>
          // The failure path shows the form decoded afresh, without the
          // `authorId` fill.
          Response(CreateFailed(ErrorText(e, "Failed to create " + cfg.singularName),
                                DecodeForm(cfg.fields, req.form, p)), calls)
  }

  /** The `TypeError` a second read of an already consumed request body
      rejects with. Its message is the runtime's; only its kind matters. */
  const BodyAlreadyRead: Thrown := ErrorObj("Body already consumed")

  /** POST /admin/<name>/new as the handler is written: its failure path
      reads the request body a second time, outside any `try`, and that read
      rejects because the body was consumed when the form was first read.
      Every other path is that of `CreatePost`. */
  function CreatePostAsWritten(cfg: EntityConfig, req: Request, remote: Remote, p: Platform): (r: Response)
    ensures r.calls == CreatePost(cfg, req, remote, p).calls
    ensures r.outcome.Unhandled? <==> CreatePost(cfg, req, remote, p).outcome.CreateFailed?
    ensures !r.outcome.Unhandled? ==> r == CreatePost(cfg, req, remote, p)
    ensures r.outcome.Unhandled? ==> r.outcome.thrown == BodyAlreadyRead
  {
    var intended := CreatePost(cfg, req, remote, p);
    if intended.outcome.CreateFailed? then Response(Unhandled(BodyAlreadyRead), intended.calls)
    else intended
  }

  /** The discrepancy: a valid submission whose `create` call throws ends,
      as written, in an uncaught error from the second body read, where the
      evident intent is to show the form again with the error message. */
  lemma CreateFailureRereadsConsumedBody(cfg: EntityConfig, req: Request, remote: Remote, p: Platform)
    requires Token(req).Some?
    requires |ValidateAll(cfg.fields, SubmittedData(cfg, req, Token(req).value, p))| == 0
    requires remote(0).Threw?
    ensures CreatePostAsWritten(cfg, req, remote, p).outcome == Unhandled(BodyAlreadyRead)
    ensures CreatePost(cfg, req, remote, p).outcome ==
      CreateFailed(ErrorText(remote(0).thrown, "Failed to create " + cfg.singularName),
                   DecodeForm(cfg.fields, req.form, p))
  {
  }

  /** GET /admin/<name>/<id>/edit. */
  function EditGet(cfg: EntityConfig, req: Request, remote: Remote): (r: Response)
    ensures Token(req).None? ==> r == LoginRedirect
    ensures Token(req).Some? ==>
      var loaded := LoadRecord(cfg, req, Token(req).value, remote);
      r == Response(EditPage(loaded.item, loaded.error, map[]), loaded.calls)
    ensures Token(req).Some? ==>
      r.outcome.EditPage? && r.outcome.errors == map[] && (r.outcome.notice.None? <==> Truthy(r.outcome.item))
    ensures Token(req).Some? ==> BoundToToken(r.calls, Token(req).value) && RemoteCount(r.calls) <= 1
  {
    match Token(req)
    case None => LoginRedirect
    case Some(token) =>
      var loaded := LoadRecord(cfg, req, token, remote);
      Response(EditPage(loaded.item, loaded.error, map[]), loaded.calls)
  }

  lemma {:induction false} RemoteCountAppend(a: seq<ServiceCall>, b: seq<ServiceCall>)
    ensures RemoteCount(a + b) == RemoteCount(a) + RemoteCount(b)
    decreases |b|
  {
    if |b| == 0 {
      assert a + b == a;
    } else {
      assert (a + b)[..|a + b| - 1] == a + b[..|b| - 1];
      RemoteCountAppend(a, b[..|b| - 1]);
    }
  }

  lemma RemoteCountOne(c: ServiceCall)
    ensures RemoteCount([c]) == if c.BindClient? then 0 else 1
  {
    assert [c][..0] == [];
  }

  lemma RemoteCountPair(a: ServiceCall, b: ServiceCall)
    ensures RemoteCount([a, b]) == RemoteCount([a]) + RemoteCount([b])
  {
    RemoteCountAppend([a], [b]);
    assert [a, b] == [a] + [b];
  }

  /** A trace of one binding followed by one remote call. */
  lemma BindThenCall(token: string, c: ServiceCall)
    requires !c.BindClient?
    ensures BoundToToken([BindClient(token), c], token)
    ensures RemoteCount([BindClient(token), c]) == 1
  {
    RemoteCountPair(BindClient(token), c);
    RemoteCountOne(BindClient(token));
    RemoteCountOne(c);
  }

  /** The edit submission's catch block: bind again, re-fetch the record as
      remote call `k`, and show it with the failure's message. A throw from
      this re-fetch is not caught. */
  function EditRecover(cfg: EntityConfig, token: string, ident: Option<string>, e: Thrown,
                       remote: Remote, k: nat, calls: seq<ServiceCall>): (r: Response)
    ensures var fetched := FetchRecord(cfg, ident, remote, k);
      && r.calls == calls + [BindClient(token)] + fetched.calls
      && (fetched.answer.Returned? ==>
            r.outcome == EditFailed(fetched.answer.value, ErrorText(e, "Failed to update " + cfg.singularName)))
      && (fetched.answer.Threw? ==> r.outcome == Unhandled(fetched.answer.thrown))
    ensures r.outcome.EditFailed? || r.outcome.Unhandled?
    ensures BoundToToken(calls, token) && |calls| > 0 ==> BoundToToken(r.calls, token)
    ensures RemoteCount(r.calls) <= RemoteCount(calls) + 1
    ensures HasUpdate(r.calls) <==> HasUpdate(calls)
  {
    var fetched := FetchRecord(cfg, ident, remote, k);
    var all := calls + [BindClient(token)] + fetched.calls;
    RebindThenFetch(calls, token, fetched.calls);
    match fetched.answer
    case Returned(item) => Response(EditFailed(item, ErrorText(e, "Failed to update " + cfg.singularName)), all)
    case Threw(e2) => Response(Unhandled(e2), all)
  }

  /** Appending a fresh binding and at most one fetch to a trace keeps it
      bound to the same token, adds at most one remote call and no update. */
  lemma RebindThenFetch(calls: seq<ServiceCall>, token: string, tail: seq<ServiceCall>)
    requires tail == [] || (|tail| == 1 && tail[0].FetchCall?)
    ensures var all := calls + [BindClient(token)] + tail;
      && (BoundToToken(calls, token) && |calls| > 0 ==> BoundToToken(all, token))
      && RemoteCount(all) <= RemoteCount(calls) + 1
      && (HasUpdate(all) <==> HasUpdate(calls))
  {
    if BoundToToken(calls, token) && |calls| > 0 {
      RebindThenFetchBound(calls, token, tail);
    }
    RebindThenFetchCount(calls, token, tail);
    RebindThenFetchUpdate(calls, token, tail);
  }

  lemma RebindThenFetchBound(calls: seq<ServiceCall>, token: string, tail: seq<ServiceCall>)
    requires tail == [] || (|tail| == 1 && tail[0].FetchCall?)
    requires BoundToToken(calls, token) && |calls| > 0
    ensures BoundToToken(calls + [BindClient(token)] + tail, token)
  {
    var all := calls + [BindClient(token)] + tail;
    forall i | 0 <= i < |all| && all[i].BindClient?
      ensures all[i].token == token
    {
      if i < |calls| {
        assert all[i] == calls[i];
      }
    }
    assert all[0] == calls[0];
  }

  lemma RebindThenFetchUpdate(calls: seq<ServiceCall>, token: string, tail: seq<ServiceCall>)
    requires tail == [] || (|tail| == 1 && tail[0].FetchCall?)
    ensures HasUpdate(calls + [BindClient(token)] + tail) <==> HasUpdate(calls)
  {
    var all := calls + [BindClient(token)] + tail;
    if HasUpdate(all) {
      var i :| 0 <= i < |all| && all[i].UpdateCall?;
      assert all[i] == calls[i];
    }
    if HasUpdate(calls) {
      var i :| 0 <= i < |calls| && calls[i].UpdateCall?;
      assert all[i] == calls[i];
    }
  }

  lemma RebindThenFetchCount(calls: seq<ServiceCall>, token: string, tail: seq<ServiceCall>)
    requires tail == [] || (|tail| == 1 && tail[0].FetchCall?)
    ensures RemoteCount(calls + [BindClient(token)] + tail) <= RemoteCount(calls) + 1
  {
    RemoteCountAppend(calls + [BindClient(token)], tail);
    RemoteCountAppend(calls, [BindClient(token)]);
    RemoteCountOne(BindClient(token));
    if tail != [] {
      RemoteCountOne(tail[0]);
    }
  }

  /** The edit submission when validation fails: re-fetch the record and
      show it with the errors. The decoded values are not handed back, and
      no update is sent. If that fetch throws, the handler's catch takes
      over as for a failed update: it fetches again and shows the record
      with the fetch's error message, and the validation errors are lost. */
  function EditRejected(cfg: EntityConfig, token: string, ident: Option<string>,
                        errors: map<string, string>, remote: Remote): (r: Response)
    ensures BoundToToken(r.calls, token) && RemoteCount(r.calls) <= 2
    ensures !HasUpdate(r.calls)
    ensures r.outcome.EditInvalid? || r.outcome.EditFailed? || r.outcome.Unhandled?
    ensures r.outcome.EditInvalid? ==> r.outcome.errors == errors
    ensures FetchRecord(cfg, ident, remote, 0).answer.Returned? ==>
      r.outcome == EditInvalid(FetchRecord(cfg, ident, remote, 0).answer.value, errors)
    ensures var fetched := FetchRecord(cfg, ident, remote, 0);
      fetched.answer.Threw? ==>
        && !r.outcome.EditInvalid?
        && r == EditRecover(cfg, token, ident, fetched.answer.thrown, remote, |fetched.calls|,
                            [BindClient(token)] + fetched.calls)
  {
    var fetched := FetchRecord(cfg, ident, remote, 0);
    var calls := [BindClient(token)] + fetched.calls;
    BindThenFetchCount(token, fetched.calls);
    if fetched.answer.Returned? then Response(EditInvalid(fetched.answer.value, errors), calls)
    else EditRecover(cfg, token, ident, fetched.answer.thrown, remote, |fetched.calls|, calls)
  }

  /** A binding followed by at most one call is at most one remote call. */
  lemma BindThenFetchCount(token: string, tail: seq<ServiceCall>)
    requires |tail| <= 1
    ensures RemoteCount([BindClient(token)] + tail) <= 1
  {
    RemoteCountAppend([BindClient(token)], tail);
    RemoteCountOne(BindClient(token));
    if tail != [] {
      assert tail == [tail[0]];
      RemoteCountOne(tail[0]);
    }
  }

  /** The edit submission when validation passes: update, then go to the
      record's page, or show the re-fetched record with the update's
      failure. */
  function EditSubmit(cfg: EntityConfig, token: string, ident: Option<string>,
                      data: map<string, Value>, remote: Remote): (r: Response)
    ensures BoundToToken(r.calls, token) && RemoteCount(r.calls) <= 2
    ensures |r.calls| >= 2 && r.calls[..2] == [BindClient(token), UpdateCall(ResolveIdArg(cfg, ident), data)]
    ensures remote(0).Returned? ==> r.outcome == Redirect(RecordPath(cfg, RouteText(ident)))
    ensures remote(0).Threw? ==>
      var fetched := FetchRecord(cfg, ident, remote, 1);
      && (fetched.answer.Returned? ==>
            r.outcome == EditFailed(fetched.answer.value,
                                    ErrorText(remote(0).thrown, "Failed to update " + cfg.singularName)))
      && (fetched.answer.Threw? ==> r.outcome == Unhandled(fetched.answer.thrown))
  {
    var calls := [BindClient(token), UpdateCall(ResolveIdArg(cfg, ident), data)];
    assert RemoteCount(calls) == 1 by {
      RemoteCountAppend([calls[0]], [calls[1]]);
      RemoteCountOne(calls[0]);
      RemoteCountOne(calls[1]);
      assert calls == [calls[0]] + [calls[1]];
    }
    match remote(0)
    case Returned(_) => Response(Redirect(RecordPath(cfg, RouteText(ident))), calls)
    case Threw(e) =>
      var r := EditRecover(cfg, token, ident, e, remote, 1, calls);
      assert r.calls[..2] == calls;
      r
  }

  /** POST /admin/<name>/<id>/edit. */
  function EditPost(cfg: EntityConfig, req: Request, remote: Remote, p: Platform): (r: Response)
    ensures Token(req).None? ==> r == LoginRedirect
    ensures Token(req).Some? ==>
      var ident := RouteParam(cfg, req);
      var data := DecodeForm(cfg.fields, req.form, p);
      var errors := ValidateAll(cfg.fields, data);
      && (|errors| > 0 ==> r == EditRejected(cfg, Token(req).value, ident, errors, remote))
      && (|errors| == 0 ==> r == EditSubmit(cfg, Token(req).value, ident, data, remote))
    ensures Token(req).Some? ==> BoundToToken(r.calls, Token(req).value) && RemoteCount(r.calls) <= 2
  {
    match Token(req)
    case None => LoginRedirect
    case Some(token) =>
      var ident := RouteParam(cfg, req);
      var data := DecodeForm(cfg.fields, req.form, p);
      var errors := ValidateAll(cfg.fields, data);
      if |errors| > 0 then EditRejected(cfg, token, ident, errors, remote)
      else EditSubmit(cfg, token, ident, data, remote)
  }

  /** POST /admin/<name>/<id>/delete: always back to the list. */
  function Delete(cfg: EntityConfig, req: Request, remote: Remote): (r: Response)
    ensures Token(req).None? ==> r == LoginRedirect
    ensures Token(req).Some? ==>
      r == Response(Redirect(ListPath(cfg)),
                    [BindClient(Token(req).value), DeleteCall(ResolveIdArg(cfg, RouteParam(cfg, req)))])
    ensures Token(req).Some? ==> BoundToToken(r.calls, Token(req).value) && RemoteCount(r.calls) == 1
  {
    match Token(req)
    case None => LoginRedirect
    case Some(token) =>
      var calls := [BindClient(token), DeleteCall(ResolveIdArg(cfg, RouteParam(cfg, req)))];
      BindThenCall(token, calls[1]);
      // The outcome is the same whether the delete resolves or throws.
      match remote(0)
      case Returned(_) => Response(Redirect(ListPath(cfg)), calls)
      case Threw(_) => Response(Redirect(ListPath(cfg)), calls)
  }
}

=== FILE: engine_services.dfy ===
/** The handlers' service calls as the entity services perform them: a
    handler's trace, replayed on one of the three services, becomes the
    HTTP requests that service sends. */
module EngineServices {
  import opened Options
  import opened JsValue
  import opened AdminTypes
  import opened CrudHandlers
  import opened EntityServices

  /** The argument the handlers pass for a record identifier: the parsed
      number (NaN when it does not parse) or the route text (`undefined`
      when the route has none). */
  function IdArgument(id: RecordId): (v: Value)
    ensures id.NumericId? ==> (v.Num? <==> id.n.Some?) && (v.Num? ==> v.n == id.n.value)
    ensures id.KeyId? ==> (v.Str? <==> id.key.Some?) && (v.Str? ==> v.s == id.key.value)
    ensures id.NumericId? && id.n.None? ==> v == NaN
    ensures id.KeyId? && id.key.None? ==> v == Undefined
  {
    match id
    case NumericId(n) => if n.Some? then Num(n.value) else NaN
    case KeyId(k) => if k.Some? then Str(k.value) else Undefined
  }

  /** The service method a handler call invokes, with its arguments. */
  function ToOp(call: ServiceCall): (op: Op)
    ensures call.BindClient? <==> op.SetClient?
    ensures call.BindClient? ==> op.client == Client(Some(call.token))
  {
    match call
    case BindClient(token) => SetClient(Client(Some(token)))
    case ListCall(page, pageSize) => ListRecords(EngineListParams(page, pageSize))
    case FetchCall(id) => if id.NumericId? then GetById(IdArgument(id)) else GetByKey(IdArgument(id))
    case CreateCall(data) => Create(Obj(data))
    case UpdateCall(id, data) => Update(IdArgument(id), Obj(data))
    case DeleteCall(id) => Remove(IdArgument(id))
  }

  function ToOps(calls: seq<ServiceCall>): (ops: seq<Op>)
    ensures |ops| == |calls|
    ensures forall i | 0 <= i < |calls| :: ops[i] == ToOp(calls[i])
  {
    seq(|calls|, i requires 0 <= i < |calls| => ToOp(calls[i]))
  }

  /** Whatever client the service held before, every request a handler's
      trace causes goes out on the client made from the request's token. */
  lemma HandlerRequestsCarryToken(svc: Service, calls: seq<ServiceCall>, token: string)
    requires |calls| > 0 && BoundToToken(calls, token)
    ensures var effects := Run(svc, ToOps(calls)).1;
      forall i | 0 <= i < |effects| :: effects[i].Sent? ==> effects[i].request.client == Client(Some(token))
  {
    var c := Client(Some(token));
    var ops := ToOps(calls);
    var rest := ops[1..];
    var bound := svc.(client := c);
    assert ops[0] == SetClient(c);
    forall i | 0 <= i < |rest|
      ensures rest[i].SetClient? ==> rest[i].client == c
    {
      assert rest[i] == ToOp(calls[i + 1]);
    }
    RequestsStayOnClient(bound, rest, c);
    var later := Run(bound, rest).1;
    var effects := Run(svc, ops).1;
    assert effects == [ClientReplaced] + later;
    forall i | 0 <= i < |effects| && effects[i].Sent?
      ensures effects[i].request.client == c
    {
      assert effects[i] == later[i - 1];
    }
  }

  /** The list handler on the users service sends one GET on the token's
      client whose path carries the page and never the page size. */
  lemma UsersListRequest(cfg: EntityConfig, req: Request, remote: Remote)
    requires Token(req).Some?
    ensures var page := QueryNumber(req.query, "page", "1");
      var effects := Run(NewService(Users), ToOps(CrudHandlers.List(cfg, req, remote).calls)).1;
      && |effects| == 2
      && effects[1].Sent?
      && effects[1].request.client == Client(Some(Token(req).value))
      && effects[1].request.verb == Get
      && effects[1].request.path ==
           if Truthy(page) then "/ts-admin/users?page=" + ToJsString(page) else "/ts-admin/users"
  {
    var page := QueryNumber(req.query, "page", "1");
    var pageSize := QueryNumber(req.query, "pageSize", "20");
    assert CrudHandlers.List(cfg, req, remote).calls == [BindClient(Token(req).value), ListCall(page, pageSize)];
    UsersListTrace(Token(req).value, page, pageSize);
  }

  /** The list trace `bind, list(page, pageSize)` replayed on the users service. */
  lemma UsersListTrace(token: string, page: Value, pageSize: Value)
    ensures var effects := Run(NewService(Users), ToOps([BindClient(token), ListCall(page, pageSize)])).1;
      && |effects| == 2
      && effects[1].Sent?
      && effects[1].request.client == Client(Some(token))
      && effects[1].request.verb == Get
      && effects[1].request.path ==
           if Truthy(page) then "/ts-admin/users?page=" + ToJsString(page) else "/ts-admin/users"
  {
    var c := Client(Some(token));
    var ops := ToOps([BindClient(token), ListCall(page, pageSize)]);
    assert ops == [SetClient(c), ListRecords(EngineListParams(page, pageSize))];
    var bound := NewService(Users).(client := c);
    var listed := Perform(bound, ops[1]);
    assert listed.effect == Sent(ApiRequest(c, Get, ListRequestPath(Users, EngineListParams(page, pageSize)), None));
    assert ops[1..][1..] == [];
    assert Run(bound, ops[1..]).1 == [listed.effect];
    assert Run(NewService(Users), ops).1 == [ClientReplaced, listed.effect];
    UsersIgnorePageSize(page, pageSize);
  }
}

=== FILE: entity_services.dfy ===
/** The three entity services (articles, site settings, users) as request
    builders: each call becomes one HTTP request description on the
    service's current client. The transport itself is not modelled; a
    client is the token it was made with. */
module EntityServices {
  import opened Options
  import opened JsText
  import opened JsValue

  /** An API client: the token it was made from, None for the shared
      default client. */
  datatype Client = Client(token: Option<string>)

  const DefaultClient := Client(None)

  datatype HttpMethod = Get | Post | Put | Delete

  datatype ApiRequest = ApiRequest(client: Client, verb: HttpMethod, path: string, body: Option<Value>)

  datatype ServiceKind = Articles | SiteSettings | Users

  /** A service instance: which service, and the client it currently uses. */
  datatype Service = Service(kind: ServiceKind, client: Client)

  /** A freshly constructed service uses the default client. */
  function NewService(kind: ServiceKind): Service {
    Service(kind, DefaultClient)
  }

  /** The root every service's paths hang below. */
  const ApiRoot := "/ts-admin/"

  /** The collection segment each service adds below the root. */
  function CollectionName(kind: ServiceKind): (name: string)
    ensures name != "" && '/' !in name && '?' !in name
  {
    match kind
    case Articles => "articles"
    case SiteSettings => "site_settings"
    case Users => "users"
  }

  /** The collection path: one segment below `/ts-admin/`, so a record
      path is the base path, `/` and the identifier. */
  function BasePath(kind: ServiceKind): (path: string)
    ensures |path| > |ApiRoot| && path[..|ApiRoot|] == ApiRoot
    ensures '/' !in path[|ApiRoot|..] && '?' !in path
  {
    var path := ApiRoot + CollectionName(kind);
    assert path[|ApiRoot|..] == CollectionName(kind);
    path
  }

  /** The list parameters each service reads, in the order it adds them to
      the query. Users page by `limit`, not `pageSize`. */
  function QueryKeys(kind: ServiceKind): (keys: seq<string>)
    ensures |keys| > 0 && keys[0] == "page"
    ensures "pageSize" in keys <==> kind != Users
    ensures "limit" in keys <==> kind == Users
    ensures forall i, j | 0 <= i < j < |keys| :: keys[i] != keys[j]
  {
    match kind
    case Articles => ["page", "pageSize", "status"]
    case SiteSettings => ["page", "pageSize", "category"]
    case Users => ["page", "limit"]
  }

  /** The list parameter object: its properties by name. */
  type ListParams = map<string, Value>

  /** `params?.[key]`: `undefined` when the property is missing. */
  function Param(params: ListParams, key: string): Value {
    if key in params then params[key] else Undefined
  }

  /** The query entries: one `key=value` pair per truthy parameter among
      `keys`, in key order, the value written with `toString()`. */
  function QueryPairs(keys: seq<string>, params: ListParams): (r: seq<(string, string)>)
    ensures |r| <= |keys|
    ensures forall i | 0 <= i < |r| :: r[i].0 in keys && Truthy(Param(params, r[i].0)) && r[i].1 == ToJsString(Param(params, r[i].0))
    ensures forall k | k in keys && Truthy(Param(params, k)) :: exists i | 0 <= i < |r| :: r[i].0 == k
    ensures |keys| == 1 ==> r == if Truthy(Param(params, keys[0])) then [(keys[0], ToJsString(Param(params, keys[0])))] else []
  {
    if keys == [] then []
    else
      var k := keys[0];
      var rest := QueryPairs(keys[1..], params);
      assert forall key | key in keys :: key == k || key in keys[1..];
      if Truthy(Param(params, k)) then
        var r := [(k, ToJsString(Param(params, k)))] + rest;
        assert forall i | 1 <= i < |r| :: r[i] == rest[i - 1];
        assert forall key | key in keys[1..] && Truthy(Param(params, key)) :: exists i | 0 <= i < |r| :: r[i].0 == key by {
          forall key | key in keys[1..] && Truthy(Param(params, key))
            ensures exists i | 0 <= i < |r| :: r[i].0 == key
          {
            var j :| 0 <= j < |rest| && rest[j].0 == key;
            assert r[j + 1].0 == key;
          }
        }
        assert r[0].0 == k;
        r
      else rest
  }

  /** Only the parameters among `keys` matter to the query. */
  lemma {:induction false} QueryPairsAgree(keys: seq<string>, a: ListParams, b: ListParams)
    requires forall k | k in keys :: Param(a, k) == Param(b, k)
    ensures QueryPairs(keys, a) == QueryPairs(keys, b)
    decreases |keys|
  {
    if keys != [] {
      assert forall k | k in keys[1..] :: k in keys;
      QueryPairsAgree(keys[1..], a, b);
    }
  }

  /** Query entries follow key order: the pairs for a concatenation of key
      lists are the pairs for the first list followed by those for the second. */
  lemma {:induction false} QueryPairsAppend(a: seq<string>, b: seq<string>, params: ListParams)
    ensures QueryPairs(a + b, params) == QueryPairs(a, params) + QueryPairs(b, params)
    decreases |a|
  {
    if a == [] {
      assert a + b == b;
    } else {
      assert (a + b)[1..] == a[1..] + b;
      QueryPairsAppend(a[1..], b, params);
    }
  }

  /** One query entry, `key=value`. */
  function EntryText(pair: (string, string)): (t: string)
    ensures t != ""
  {
    assert (pair.0 + "=" + pair.1)[|pair.0|] == '=';
    pair.0 + "=" + pair.1
  }

  /** `URLSearchParams.toString()`: the entries joined by `&`. */
  function EncodeQuery(pairs: seq<(string, string)>): (q: string)
    ensures q == "" <==> pairs == []
  {
    if pairs == [] then ""
    else if |pairs| == 1 then EntryText(pairs[0])
    else EntryText(pairs[0]) + "&" + EncodeQuery(pairs[1..])
  }

  /** The list request path: the base path alone when no parameter the
      service reads is truthy, otherwise the base path, `?` and the query. */
  function ListRequestPath(kind: ServiceKind, params: ListParams): (path: string)
    ensures path == BasePath(kind) <==> forall k | k in QueryKeys(kind) :: !Truthy(Param(params, k))
    ensures path != BasePath(kind) ==>
      path == BasePath(kind) + "?" + EncodeQuery(QueryPairs(QueryKeys(kind), params))
  {
    var pairs := QueryPairs(QueryKeys(kind), params);
    var query := EncodeQuery(pairs);
    if query != "" then
      var path := BasePath(kind) + "?" + query;
      assert |path| > |BasePath(kind)|;
      path
    else BasePath(kind)
  }

  /** The path of one record: the base path, `/` and the identifier as text. */
  function RecordRequestPath(kind: ServiceKind, id: Value): string {
    BasePath(kind) + "/" + ToJsString(id)
  }

  /** Reads a record identifier back from a request path; None when the
      path is not below the service's base path. */
  function ParseRecordPath(kind: ServiceKind, path: string): (r: Option<string>)
    ensures r.Some? ==> path == BasePath(kind) + "/" + r.value
  {
    var prefix := BasePath(kind) + "/";
    if prefix <= path then Some(path[|prefix|..]) else None
  }

  /** Record paths and list paths are told apart by what follows the base
      path, and the record identifier reads back from its path. */
  lemma RecordAndListPathsDiffer(kind: ServiceKind, id: Value, params: ListParams)
    ensures ParseRecordPath(kind, RecordRequestPath(kind, id)) == Some(ToJsString(id))
    ensures ParseRecordPath(kind, ListRequestPath(kind, params)).None?
  {
    RecordPathReadsBack(kind, ToJsString(id));
    ListPathIsNoRecordPath(kind, ListRequestPath(kind, params));
  }

  lemma RecordPathReadsBack(kind: ServiceKind, text: string)
    ensures ParseRecordPath(kind, BasePath(kind) + "/" + text) == Some(text)
  {
    var prefix := BasePath(kind) + "/";
    var path := prefix + text;
    assert prefix <= path && path[|prefix|..] == text;
  }

  /** A path that is the base path, or the base path and a query, is not
      below the base path. */
  lemma ListPathIsNoRecordPath(kind: ServiceKind, path: string)
    requires path == BasePath(kind) || (|path| > |BasePath(kind)| && path[..|BasePath(kind)|] == BasePath(kind) && path[|BasePath(kind)|] == '?')
    ensures ParseRecordPath(kind, path).None?
  {
    var base := BasePath(kind);
    var prefix := base + "/";
    assert prefix[|base|] == '/';
  }

  /** One call on a service object. */
  datatype Op =
    | SetClient(client: Client)
    | ListRecords(params: ListParams)
    | GetById(id: Value)
    | GetByKey(key: Value)
    | Create(input: Value)
    | Update(id: Value, input: Value)
    | Remove(id: Value)
    | BulkDelete(ids: seq<Value>)

  /** What a call does: sends one request, replaces the client, or fails
      because the service has no such method. */
  datatype Effect = Sent(request: ApiRequest) | ClientReplaced | NoSuchMethod(name: string)

  datatype Step = Step(service: Service, effect: Effect)

  /** Performs one call. Only `setClient` changes the service, and it changes
      only the client; every request goes out on the current client. */
  function Perform(svc: Service, op: Op): (r: Step)
    ensures op.SetClient? <==> r.service != svc || r.effect.ClientReplaced?
    ensures op.SetClient? ==> r == Step(svc.(client := op.client), ClientReplaced)
    ensures r.effect.Sent? ==> r.effect.request.client == svc.client
    ensures r.effect.NoSuchMethod? <==> op.GetByKey? || (op.BulkDelete? && svc.kind != Articles)
  {
    var base := BasePath(svc.kind);
    match op
    case SetClient(c) => Step(svc.(client := c), ClientReplaced)
    case ListRecords(params) => Step(svc, Sent(ApiRequest(svc.client, Get, ListRequestPath(svc.kind, params), None)))
    case GetById(id) => Step(svc, Sent(ApiRequest(svc.client, Get, RecordRequestPath(svc.kind, id), None)))
    case GetByKey(_) => Step(svc, NoSuchMethod("getByKey"))
    case Create(input) => Step(svc, Sent(ApiRequest(svc.client, Post, base, Some(input))))
    case Update(id, input) => Step(svc, Sent(ApiRequest(svc.client, Put, RecordRequestPath(svc.kind, id), Some(input))))
    case Remove(id) => Step(svc, Sent(ApiRequest(svc.client, Delete, RecordRequestPath(svc.kind, id), None)))
    case BulkDelete(ids) =>
      if svc.kind == Articles then
        Step(svc, Sent(ApiRequest(svc.client, Post, base + "/bulk-delete", Some(Obj(map["ids" := Arr(ids)])))))
      else Step(svc, NoSuchMethod("bulkDelete"))
  }

  /** Where each data call goes and what it carries. `getById`, `update`
      and `delete` address the record path of their identifier, which reads
      back to that identifier; `list` and `create` address the collection,
      which reads as no record. Only `create`, `update` and `bulkDelete`
      send a body. */
  lemma RequestTargets(svc: Service, op: Op)
    ensures var e := Perform(svc, op).effect;
      (op.GetById? || op.Update? || op.Remove?) ==>
        e.Sent? && ParseRecordPath(svc.kind, e.request.path) == Some(ToJsString(op.id))
    ensures var e := Perform(svc, op).effect;
      (op.ListRecords? || op.Create?) ==> e.Sent? && ParseRecordPath(svc.kind, e.request.path).None?
    ensures var e := Perform(svc, op).effect;
      e.Sent? ==>
        && (e.request.body.Some? <==> op.Create? || op.Update? || op.BulkDelete?)
        && e.request.verb == if op.GetById? || op.ListRecords? then Get
                             else if op.Update? then Put
                             else if op.Remove? then Delete
                             else Post
    ensures (op.Create? || op.Update?) ==> Perform(svc, op).effect.request.body == Some(op.input)
    ensures op.BulkDelete? && svc.kind == Articles ==>
      Perform(svc, op).effect.request == ApiRequest(svc.client, Post, "/ts-admin/articles/bulk-delete", Some(Obj(map["ids" := Arr(op.ids)])))
  {
    match op
    case GetById(id) => RecordAndListPathsDiffer(svc.kind, id, map[]);
    case Update(id, _) => RecordAndListPathsDiffer(svc.kind, id, map[]);
    case Remove(id) => RecordAndListPathsDiffer(svc.kind, id, map[]);
    case ListRecords(params) => RecordAndListPathsDiffer(svc.kind, Undefined, params);
    case Create(_) => RecordAndListPathsDiffer(svc.kind, Undefined, map[]);
    case BulkDelete(_) => BulkDeletePath();
    case _ =>
  }

  lemma BulkDeletePath()
    ensures BasePath(Articles) + "/bulk-delete" == "/ts-admin/articles/bulk-delete"
  {
    assert BasePath(Articles) == "/ts-admin/articles";
  }

  /** Performs calls in order, collecting their effects. */
  function Run(svc: Service, ops: seq<Op>): (r: (Service, seq<Effect>))
    ensures |r.1| == |ops|
    ensures r.0.kind == svc.kind
    ensures (forall i | 0 <= i < |ops| :: !ops[i].SetClient?) ==> r.0 == svc
    decreases |ops|
  {
    if ops == [] then (svc, [])
    else
      var step := Perform(svc, ops[0]);
      var rest := Run(step.service, ops[1..]);
      (rest.0, [step.effect] + rest.1)
  }

  /** After `setClient(c)` every request of the following calls, up to the
      next `setClient`, goes out on `c`. */
  lemma {:induction false} LaterRequestsUseNewClient(svc: Service, c: Client, ops: seq<Op>)
    requires forall i | 0 <= i < |ops| :: !ops[i].SetClient?
    ensures var effects := Run(svc, [SetClient(c)] + ops).1;
      forall i | 1 <= i < |effects| :: effects[i].Sent? ==> effects[i].request.client == c
    decreases |ops|
  {
    var bound := svc.(client := c);
    assert ([SetClient(c)] + ops)[1..] == ops;
    assert Run(svc, [SetClient(c)] + ops).1 == [ClientReplaced] + Run(bound, ops).1;
    RequestsUseClient(bound, ops);
  }

  /** Without `setClient`, every request goes out on the service's client. */
  lemma {:induction false} RequestsUseClient(svc: Service, ops: seq<Op>)
    requires forall i | 0 <= i < |ops| :: !ops[i].SetClient?
    ensures forall i | 0 <= i < |ops| :: Run(svc, ops).1[i].Sent? ==> Run(svc, ops).1[i].request.client == svc.client
    decreases |ops|
  {
    if ops != [] {
      var step := Perform(svc, ops[0]);
      assert step.service == svc;
      RequestsUseClient(svc, ops[1..]);
      assert forall i | 1 <= i < |ops| :: ops[1..][i - 1] == ops[i];
    }
  }

  /** When the service starts on client `c` and every `setClient` in the
      calls installs `c` again, every request goes out on `c`. */
  lemma {:induction false} RequestsStayOnClient(svc: Service, ops: seq<Op>, c: Client)
    requires svc.client == c
    requires forall i | 0 <= i < |ops| :: ops[i].SetClient? ==> ops[i].client == c
    ensures forall i | 0 <= i < |ops| :: Run(svc, ops).1[i].Sent? ==> Run(svc, ops).1[i].request.client == c
    decreases |ops|
  {
    if ops != [] {
      var step := Perform(svc, ops[0]);
      assert step.service.client == c;
      assert forall i | 1 <= i < |ops| :: ops[1..][i - 1] == ops[i];
      RequestsStayOnClient(step.service, ops[1..], c);
    }
  }

  /** The list call the handlers make, with parameters `{page, pageSize}`. */
  function EngineListParams(page: Value, pageSize: Value): ListParams {
    map["page" := page, "pageSize" := pageSize]
  }

  /** The query pair for one parameter, present iff the value is truthy. */
  function PairIfTruthy(key: string, v: Value): seq<(string, string)> {
    if Truthy(v) then [(key, ToJsString(v))] else []
  }

  /** The query pairs of a single key. */
  lemma OneKeyPairs(a: string, params: ListParams)
    ensures QueryPairs([a], params) == PairIfTruthy(a, Param(params, a))
  {
  }

  /** The query pairs of two keys, in order. */
  lemma TwoKeyPairs(a: string, b: string, params: ListParams)
    ensures QueryPairs([a, b], params) == PairIfTruthy(a, Param(params, a)) + PairIfTruthy(b, Param(params, b))
  {
    OneKeyPairs(a, params);
    OneKeyPairs(b, params);
    QueryPairsAppend([a], [b], params);
    assert [a] + [b] == [a, b];
  }

  /** The query pairs of three keys, in order. */
  lemma ThreeKeyPairs(a: string, b: string, c: string, params: ListParams)
    ensures QueryPairs([a, b, c], params) ==
      PairIfTruthy(a, Param(params, a)) + PairIfTruthy(b, Param(params, b)) + PairIfTruthy(c, Param(params, c))
  {
    TwoKeyPairs(a, b, params);
    OneKeyPairs(c, params);
    QueryPairsAppend([a, b], [c], params);
    assert [a, b] + [c] == [a, b, c];
  }

  /** The query pairs of the handlers' list call: `page` for every service,
      then `pageSize` for articles and site settings only. */
  lemma EngineListPairs(kind: ServiceKind, page: Value, pageSize: Value)
    ensures QueryPairs(QueryKeys(kind), EngineListParams(page, pageSize)) ==
      PairIfTruthy("page", page) + (if kind == Users then [] else PairIfTruthy("pageSize", pageSize))
  {
    var params := EngineListParams(page, pageSize);
    assert Param(params, "page") == page;
    match kind
    case Users =>
      assert Param(params, "limit") == Undefined;
      TwoKeyPairs("page", "limit", params);
    case Articles =>
      assert Param(params, "pageSize") == pageSize;
      assert Param(params, "status") == Undefined;
      ThreeKeyPairs("page", "pageSize", "status", params);
    case SiteSettings =>
      assert Param(params, "pageSize") == pageSize;
      assert Param(params, "category") == Undefined;
      ThreeKeyPairs("page", "pageSize", "category", params);
  }

  /** The users service never forwards the handlers' `pageSize`: its list
      path depends on `page` alone. */
  lemma UsersIgnorePageSize(page: Value, pageSize: Value)
    ensures ListRequestPath(Users, EngineListParams(page, pageSize)) ==
      if Truthy(page) then "/ts-admin/users?page=" + ToJsString(page) else "/ts-admin/users"
  {
    EngineListPairs(Users, page, pageSize);
    UsersBasePath();
    if Truthy(page) {
      ListPathWithPairs(Users, EngineListParams(page, pageSize));
      UsersPagePath(ToJsString(page));
    }
  }

  lemma UsersBasePath()
    ensures BasePath(Users) == "/ts-admin/users"
  {
  }

  lemma UsersPagePath(text: string)
    ensures BasePath(Users) + ("?" + EntryText(("page", text))) == "/ts-admin/users?page=" + text
  {
    UsersBasePath();
  }

  /** With at least one query pair the list path is the base path, `?`
      and the encoded pairs. */
  lemma ListPathWithPairs(kind: ServiceKind, params: ListParams)
    requires QueryPairs(QueryKeys(kind), params) != []
    ensures ListRequestPath(kind, params) == BasePath(kind) + ("?" + EncodeQuery(QueryPairs(QueryKeys(kind), params)))
  {
    assert BasePath(kind) + "?" + EncodeQuery(QueryPairs(QueryKeys(kind), params))
        == BasePath(kind) + ("?" + EncodeQuery(QueryPairs(QueryKeys(kind), params)));
  }

  /** With truthy `page` and `pageSize` (the defaults 1 and 20 among them)
      articles and site settings send both, users send only the page. */
  lemma TruthyListPath(kind: ServiceKind, page: Value, pageSize: Value)
    requires Truthy(page) && Truthy(pageSize)
    ensures var pageEntry := EntryText(("page", ToJsString(page)));
      ListRequestPath(kind, EngineListParams(page, pageSize)) ==
        if kind == Users then BasePath(kind) + ("?" + pageEntry)
        else BasePath(kind) + ("?" + (pageEntry + "&" + EntryText(("pageSize", ToJsString(pageSize)))))
  {
    var params := EngineListParams(page, pageSize);
    var pairs := QueryPairs(QueryKeys(kind), params);
    EngineListPairs(kind, page, pageSize);
    ListPathWithPairs(kind, params);
    if kind != Users {
      var first := ("page", ToJsString(page));
      var second := ("pageSize", ToJsString(pageSize));
      assert pairs == [first, second];
      assert EncodeQuery(pairs) == EntryText(first) + "&" + EntryText(second) by {
        assert pairs[1..] == [second];
      }
    }
  }
}

=== FILE: field_codec.dfy ===
/** The decode half of the field-type table: how a submitted form turns
    into the record the handlers validate and send. */
module FieldCodec {
  import opened Options
  import opened JsText
  import opened JsValue
  import opened AdminTypes

  /** A submitted form: the first value posted under each name. */
  type FormData = map<string, string>

  /** `form.get(name)`: None (`null`) when nothing was posted under it. */
  function FormGet(form: FormData, name: string): (r: Option<string>)
    ensures r.Some? <==> name in form
  {
    if name in form then Some(form[name]) else None
  }

  /** `parseInt(s)` as a value: an integer or `NaN`. */
  function ParseIntValue(s: string): (v: Value)
    ensures v.Num? || v.NaN?
    ensures v.Num? <==> ParseInt(s).Some?
  {
    match ParseInt(s)
    case Some(n) => Num(n)
    case None => NaN
  }

  /** The list handler's fallback page texts read as the numbers 1 and 20. */
  lemma ListFallbackValues()
    ensures ParseIntValue("1") == Num(1) && ParseIntValue("20") == Num(20)
  {
    ParseIntOfDigit('1');
    ParseIntOfDigitPair("20");
    ParsedValue("1", 1);
    ParsedValue("20", 20);
  }

  lemma ParsedValue(s: string, n: int)
    requires ParseInt(s) == Some(n)
    ensures ParseIntValue(s) == Num(n)
  {
  }

  /** The raw form value is truthy: present and not empty. */
  predicate RawTruthy(raw: Option<string>) {
    raw.Some? && raw.value != ""
  }

  /** The types whose raw text is stored unchanged. */
  predicate PassesThrough(t: FieldType) {
    !(t.BooleanType? || t.NumberType? || t.JsonType?)
  }

  /** Decodes one raw form value by the field's type: a checkbox is set iff
      it was posted as "on"; a number is `null` when blank and `parseInt`
      otherwise (possibly `NaN`); JSON is `null` when blank, the parsed
      value when it parses, and the raw text when it does not; every other
      type keeps the raw text, `null` when absent. */
  function DecodeField(t: FieldType, raw: Option<string>, p: Platform): (v: Value)
    ensures t.BooleanType? ==> v.Bool? && (v.b <==> raw == Some("on"))
    ensures t.NumberType? ==> (v.Null? <==> !RawTruthy(raw))
    ensures t.NumberType? && RawTruthy(raw) ==> (v.Num? <==> ParseInt(raw.value).Some?)
    ensures t.NumberType? ==> (Truthy(v) <==> RawTruthy(raw) && ParseInt(raw.value) !in {None, Some(0)})
    ensures t.NumberType? ==> v.Null? || v.Num? || v.NaN?
    ensures t.NumberType? && RawTruthy(raw) && ParseInt(raw.value).Some? ==> v == Num(ParseInt(raw.value).value)
    ensures t.JsonType? && !RawTruthy(raw) ==> v.Null?
    ensures t.JsonType? && RawTruthy(raw) && p.jsonParse(raw.value).None? ==> v == Str(raw.value)
    ensures t.JsonType? && RawTruthy(raw) && p.jsonParse(raw.value).Some? ==> v == p.jsonParse(raw.value).value
    ensures PassesThrough(t) ==> (v.Null? <==> raw.None?) && (raw.Some? ==> v == Str(raw.value))
  {
    match t
    case BooleanType => Bool(raw == Some("on"))
    case NumberType => if RawTruthy(raw) then ParseIntValue(raw.value) else Null
    case JsonType =>
      if RawTruthy(raw) then
        match p.jsonParse(raw.value)
        case Some(parsed) => parsed
        case None => Str(raw.value)
      else Null
    case _ => if raw.Some? then Str(raw.value) else Null
  }

  /** Field `i` is a form field (truthy `showInForm`) and no later form
      field has the same name, so its decoding is the one that is kept. */
  predicate IsLastFormField(fields: seq<FieldConfig>, i: int)
    requires 0 <= i < |fields|
  {
    && FlagSet(fields[i].showInForm)
    && forall j | i < j < |fields| :: FlagSet(fields[j].showInForm) ==> fields[j].name != fields[i].name
  }

  /** The names the decoder gives a key: those of the fields whose
      `showInForm` is truthy. An absent `showInForm` is skipped. */
  function FormFieldNames(fields: seq<FieldConfig>): set<string> {
    set i | 0 <= i < |fields| && FlagSet(fields[i].showInForm) :: fields[i].name
  }

  /** Decodes a submitted form against the field list, in field order;
      a later field with the same name overwrites an earlier one. */
  function DecodeForm(fields: seq<FieldConfig>, form: FormData, p: Platform): (data: map<string, Value>)
    ensures data.Keys == FormFieldNames(fields)
  {
    if |fields| == 0 then map[]
    else
      var f := fields[|fields| - 1];
      var before := DecodeForm(fields[..|fields| - 1], form, p);
      FormFieldNamesSnoc(fields);
      if !FlagSet(f.showInForm) then before
      else before[f.name := DecodeField(f.ftype, FormGet(form, f.name), p)]
  }

  /** The value decoded under a name is the decoding of the last form
      field carrying that name. */
  lemma {:induction false} DecodeFormKeepsLast(fields: seq<FieldConfig>, form: FormData, p: Platform, i: int)
    requires 0 <= i < |fields| && IsLastFormField(fields, i)
    ensures fields[i].name in DecodeForm(fields, form, p)
    ensures DecodeForm(fields, form, p)[fields[i].name] == DecodeField(fields[i].ftype, FormGet(form, fields[i].name), p)
  {
    var prefix := fields[..|fields| - 1];
    if i < |prefix| {
      assert prefix[i] == fields[i];
      assert IsLastFormField(prefix, i) by {
        assert forall j | i < j < |prefix| :: prefix[j] == fields[j];
      }
      DecodeFormKeepsLast(prefix, form, p, i);
    }
  }

  /** The decoded names of a field list: those of all but its last field,
      plus the last field's name when that field is decoded. */
  lemma FormFieldNamesSnoc(fields: seq<FieldConfig>)
    requires |fields| > 0
    ensures var f := fields[|fields| - 1];
      FormFieldNames(fields) ==
        FormFieldNames(fields[..|fields| - 1]) + (if FlagSet(f.showInForm) then {f.name} else {})
  {
    var prefix := fields[..|fields| - 1];
    assert forall i | 0 <= i < |prefix| :: prefix[i] == fields[i];
  }
}

=== FILE: form_round_trip.dfy ===
/** The two halves of the field-type table side by side: a value rendered
    by the form, submitted untouched and decoded by the handlers. Each
    lemma says which values survive the trip unchanged and how the others
    change. */
module FormRoundTrip {
  import opened Options
  import opened JsText
  import opened JsValue
  import opened AdminTypes
  import opened FieldCodec
  import opened GenericForm
  import opened FormSubmission

  /** The types whose widget submission is modelled: all but the date inputs. */
  predicate HasModelledWidget(t: FieldType) {
    !t.DateType? && !t.DateTimeType?
  }

  /** What the handlers decode for field `f` when the form showed `v` and
      the user submitted it as shown. */
  function Resubmitted(f: FieldConfig, v: Value, p: Platform): Value
    requires HasModelledWidget(f.ftype)
  {
    var w := TypedWidget(f, v, p);
    assert KindOf(w) == Some(WidgetKindFor(f.ftype));
    DecodeField(f.ftype, SubmittedRaw(w), p)
  }

  /** A field comes back as its type's decoding of what its widget submits. */
  lemma ResubmitsWhatIsSubmitted(f: FieldConfig, v: Value, p: Platform, w: Widget)
    requires HasModelledWidget(f.ftype) && w == TypedWidget(f, v, p)
    ensures !w.DateInput? && !w.DateTimeInput?
    ensures Resubmitted(f, v, p) == DecodeField(f.ftype, SubmittedRaw(w), p)
  {
  }

  /** A pass-through field comes back as the text its widget posts. */
  lemma ResubmitsText(f: FieldConfig, v: Value, p: Platform, w: Widget, t: string)
    requires HasModelledWidget(f.ftype) && PassesThrough(f.ftype) && w == TypedWidget(f, v, p)
    requires !w.DateInput? && !w.DateTimeInput? && SubmittedRaw(w) == Some(t)
    ensures Resubmitted(f, v, p) == Str(t)
  {
    ResubmitsWhatIsSubmitted(f, v, p, w);
  }

  /** Single-line text in a text input (`string`, `status`, `badge`) comes
      back unchanged. */
  lemma PlainTextRoundTrip(f: FieldConfig, s: string, p: Platform)
    requires f.ftype.StringType? || f.ftype.StatusType? || f.ftype.BadgeType?
    requires NoLineBreaks(s)
    ensures Resubmitted(f, Str(s), p) == Str(s)
  {
    var w := TypedWidget(f, Str(s), p);
    assert w == TextInput(s, f.placeholder);
    CleanTextSubmitsItself(s, f.placeholder);
    ResubmitsWhatIsSubmitted(f, Str(s), p, w);
  }

  lemma CleanTextSubmitsItself(s: string, placeholder: Option<string>)
    requires NoLineBreaks(s)
    ensures SubmittedRaw(TextInput(s, placeholder)) == Some(s)
  {
  }

  /** An email address without line breaks or surrounding whitespace comes
      back unchanged. */
  lemma EmailRoundTrip(f: FieldConfig, s: string, p: Platform)
    requires f.ftype.EmailType?
    requires NoLineBreaks(s) && Unpadded(s)
    ensures Resubmitted(f, Str(s), p) == Str(s)
  {
    EmailWidgetShowsText(f, s, p);
    CleanEmailSubmitsItself(s, f.placeholder);
    ResubmitsText(f, Str(s), p, EmailInput(s, f.placeholder), s);
  }

  lemma EmailWidgetShowsText(f: FieldConfig, s: string, p: Platform)
    requires f.ftype.EmailType?
    ensures TypedWidget(f, Str(s), p) == EmailInput(s, f.placeholder)
  {
  }

  lemma CleanEmailSubmitsItself(s: string, placeholder: Option<string>)
    requires NoLineBreaks(s) && Unpadded(s)
    ensures SubmittedRaw(EmailInput(s, placeholder)) == Some(s)
  {
  }

  /** Single-line long text comes back unchanged. */
  lemma LongTextRoundTrip(f: FieldConfig, s: string, p: Platform)
    requires f.ftype.TextType?
    requires NoLineBreaks(s)
    ensures Resubmitted(f, Str(s), p) == Str(s)
  {
    var w := TypedWidget(f, Str(s), p);
    assert w.TextArea? && w.text == s;
    CleanTextAreaSubmitsItself(s, w.rows, w.placeholder);
    ResubmitsWhatIsSubmitted(f, Str(s), p, w);
  }

  lemma CleanTextAreaSubmitsItself(s: string, rows: int, placeholder: Option<string>)
    requires NoLineBreaks(s)
    ensures SubmittedRaw(TextArea(s, rows, placeholder)) == Some(s)
  {
  }

  /** A line feed in long text comes back as CR LF. */
  lemma LongTextLineFeedBecomesCrLf(f: FieldConfig, p: Platform)
    requires f.ftype.TextType?
    ensures Resubmitted(f, Str("a\nb"), p) == Str("a\r\nb")
  {
    var s := "a\nb";
    assert TextAreaContent(s) == s;
    assert CrLf(s) == "a" + CrLf("\nb");
    assert CrLf("\nb") == "\r\n" + CrLf("b");
  }

  /** A text-like field whose value is falsy (`null`, `undefined`, 0, false,
      NaN or "") comes back as the empty string: a null text becomes "". */
  lemma FalsyTextBecomesEmpty(f: FieldConfig, v: Value, p: Platform)
    requires PassesThrough(f.ftype) && HasModelledWidget(f.ftype) && !f.ftype.SelectType?
    requires !Truthy(v)
    ensures Resubmitted(f, v, p) == Str("")
  {
  }

  /** A checkbox comes back as the boolean of the shown value: a Boolean
      survives, any other value is collapsed to its truthiness. */
  lemma CheckboxRoundTrip(f: FieldConfig, v: Value, p: Platform)
    requires f.ftype.BooleanType?
    ensures Resubmitted(f, v, p) == Bool(Truthy(v))
    ensures v.Bool? ==> Resubmitted(f, v, p) == v
  {
  }

  /** An integer comes back unchanged, zero included; `null`, `undefined`
      and NaN come back as `null`. */
  lemma NumberRoundTrip(f: FieldConfig, v: Value, p: Platform)
    requires f.ftype.NumberType?
    ensures v.Num? ==> Resubmitted(f, v, p) == v
    ensures Nullish(v) || v.NaN? ==> Resubmitted(f, v, p) == Null
  {
    var w := TypedWidget(f, v, p);
    assert w == NumberInput(NumberText(v), f.placeholder);
    if v.Num? {
      var t := IntToString(v.n);
      IntegerTextIsFloatText(v.n);
      ParseIntOfIntToString(v.n);
      assert SubmittedRaw(w) == Some(t);
      assert ParseIntValue(t) == v;
    } else if v.NaN? {
      assert NumberText(v) == "NaN";
      assert LeadingDigits("NaN") == "";
      assert SubmittedRaw(w) == Some("");
    } else if Nullish(v) {
      assert SubmittedRaw(w) == Some("");
    }
  }

  /** The platform's JSON reads back the pretty-printed text of `v` after
      the text area has rewritten its line breaks as CR LF. */
  predicate SurvivesTextArea(p: Platform, v: Value) {
    var t := CrLf(TextAreaContent(p.jsonStringify(v)));
    t != "" && p.jsonParse(t) == Some(v)
  }

  /** An object or array shown as JSON comes back as itself whenever the
      platform's JSON reads its own output back. */
  lemma JsonRoundTrip(f: FieldConfig, v: Value, p: Platform)
    requires f.ftype.JsonType?
    requires IsObjectLike(v) && SurvivesTextArea(p, v)
    ensures Resubmitted(f, v, p) == v
  {
  }

  /** Single-line text in a JSON field that is not JSON comes back as the
      same text. */
  lemma JsonTextRoundTrip(f: FieldConfig, s: string, p: Platform)
    requires f.ftype.JsonType?
    requires s != "" && NoLineBreaks(s) && p.jsonParse(s).None?
    ensures Resubmitted(f, Str(s), p) == Str(s)
  {
    JsonWidgetShowsText(f, s, p);
    var w := TypedWidget(f, Str(s), p);
    CleanTextAreaSubmitsItself(s, w.rows, w.placeholder);
    ResubmitsPosted(f, Str(s), p, TextArea(s, w.rows, w.placeholder), s);
    UnparsedJsonDecodesAsText(f.ftype, s, p);
  }

  lemma JsonWidgetShowsText(f: FieldConfig, s: string, p: Platform)
    requires f.ftype.JsonType? && s != ""
    ensures var w := TypedWidget(f, Str(s), p); w == TextArea(s, w.rows, w.placeholder)
  {
  }

  /** A field comes back as its type's decoding of the text its widget posts. */
  lemma ResubmitsPosted(f: FieldConfig, v: Value, p: Platform, w: Widget, t: string)
    requires HasModelledWidget(f.ftype) && w == TypedWidget(f, v, p)
    requires !w.DateInput? && !w.DateTimeInput? && SubmittedRaw(w) == Some(t)
    ensures Resubmitted(f, v, p) == DecodeField(f.ftype, Some(t), p)
  {
    ResubmitsWhatIsSubmitted(f, v, p, w);
  }

  /** Posted text that the platform's JSON cannot parse is kept as text. */
  lemma UnparsedJsonDecodesAsText(t: FieldType, s: string, p: Platform)
    requires t.JsonType? && s != "" && p.jsonParse(s).None?
    ensures DecodeField(t, Some(s), p) == Str(s)
  {
  }

  /** A string value that is one of the select's options comes back with
      its line breaks written as CR LF, so unchanged when it has none. */
  lemma SelectTextRoundTrip(f: FieldConfig, s: string, p: Platform, k: nat)
    requires f.ftype.SelectType? && f.options.Some?
    requires k < |f.options.value| && f.options.value[k].value == OptionStr(s)
    ensures Resubmitted(f, Str(s), p) == Str(CrLf(s))
    ensures NoLineBreaks(s) ==> Resubmitted(f, Str(s), p) == Str(s)
  {
    var shown := RenderOptions(f.options.value, Str(s));
    AgreeingSelectionSubmits(!FlagSet(f.required), shown, s, k);
    SelectResubmits(f, Str(s), p, shown, s);
  }

  /** A number value that is one of the select's options is shown selected
      but comes back as its decimal text, which no numeric option matches
      when the form is shown again. */
  lemma SelectNumberComesBackAsText(f: FieldConfig, n: int, p: Platform, k: nat)
    requires f.ftype.SelectType? && f.options.Some?
    requires k < |f.options.value| && f.options.value[k].value == OptionNum(n)
    ensures Resubmitted(f, Num(n), p) == Str(IntToString(n))
    ensures Resubmitted(f, Num(n), p) != Num(n)
    ensures forall i | 0 <= i < |f.options.value| && f.options.value[i].value.OptionNum? ::
      !RenderOptions(f.options.value, Resubmitted(f, Num(n), p))[i].selected
  {
    var shown := RenderOptions(f.options.value, Num(n));
    AgreeingSelectionSubmits(!FlagSet(f.required), shown, IntToString(n), k);
    SelectResubmits(f, Num(n), p, shown, IntToString(n));
    IntTextHasNoLineBreaks(n);
    TextSelectsNoNumericOption(f.options.value, IntToString(n));
  }

  /** Decimal text has no line break for CR LF rewriting to change. */
  lemma IntTextHasNoLineBreaks(n: int)
    ensures NoLineBreaks(IntToString(n))
  {
    var digits := NatToString(if n < 0 then -n else n);
    assert IntToString(n) == if n < 0 then "-" + digits else digits;
    assert forall i | 0 <= i < |digits| :: IsDigit(digits[i]);
  }

  /** A text value never selects a numeric option: selection is strict
      equality, and a string never equals a number. */
  lemma TextSelectsNoNumericOption(options: seq<SelectOption>, s: string)
    ensures forall i | 0 <= i < |options| && options[i].value.OptionNum? ::
      !RenderOptions(options, Str(s))[i].selected
  {
    var shown := RenderOptions(options, Str(s));
    assert forall i | 0 <= i < |options| && options[i].value.OptionNum? ::
      shown[i].selected == (Str(s) == options[i].value.ToValue());
  }

  /** A required select whose value matches none of its options comes back
      as the first option's text, with its line breaks written as CR LF:
      editing such a record silently changes it. */
  lemma RequiredSelectFallsBackToFirstOption(f: FieldConfig, v: Value, p: Platform)
    requires f.ftype.SelectType? && FlagSet(f.required) && f.options.Some? && f.options.value != []
    requires forall i | 0 <= i < |f.options.value| :: v != f.options.value[i].value.ToValue()
    ensures Resubmitted(f, v, p) == Str(CrLf(ToJsString(f.options.value[0].value.ToValue())))
    ensures NoLineBreaks(ToJsString(f.options.value[0].value.ToValue())) ==>
      Resubmitted(f, v, p) == Str(ToJsString(f.options.value[0].value.ToValue()))
  {
    var shown := RenderOptions(f.options.value, v);
    assert forall i | 0 <= i < |shown| :: !shown[i].selected;
    NothingSelectedSubmitsFirst(false, shown);
    SelectResubmits(f, v, p, shown, shown[0].value);
  }

  /** An optional select whose value matches none of its options comes
      back as the empty string of the blank option. */
  lemma OptionalSelectFallsBackToBlank(f: FieldConfig, v: Value, p: Platform)
    requires f.ftype.SelectType? && !FlagSet(f.required)
    requires f.options.Some? ==> forall i | 0 <= i < |f.options.value| :: v != f.options.value[i].value.ToValue()
    ensures Resubmitted(f, v, p) == Str("")
  {
    var shown := RenderOptions(if f.options.Some? then f.options.value else [], v);
    assert forall i | 0 <= i < |shown| :: !shown[i].selected;
    NothingSelectedSubmitsFirst(true, shown);
    SelectResubmits(f, v, p, shown, "");
  }

  /** A select field comes back as the option value its select picks, with
      line breaks written as CR LF. */
  lemma SelectResubmits(f: FieldConfig, v: Value, p: Platform, shown: seq<OptionView>, t: string)
    requires f.ftype.SelectType?
    requires shown == RenderOptions(if f.options.Some? then f.options.value else [], v)
    requires SelectSubmits(!FlagSet(f.required), shown) == Some(t)
    ensures Resubmitted(f, v, p) == Str(CrLf(t))
  {
    var w := TypedWidget(f, v, p);
    assert w == SelectBox(!FlagSet(f.required), shown);
    ResubmitsWhatIsSubmitted(f, v, p, w);
    assert PassesThrough(f.ftype);
  }

  /** In edit mode the id field posts nothing, so if it is also a decoded
      form field its decoded value is `null` (`false` for a checkbox type). */
  lemma LockedIdPostsNothing(cfg: EntityConfig, item: Value, errors: map<string, string>,
                             f: FieldConfig, p: Platform)
    requires f.name == cfg.idField
    ensures SubmittedRaw(RenderField(cfg, item, errors, true, f, p).widget).None?
    ensures DecodeField(f.ftype, None, p) == if f.ftype.BooleanType? then Bool(false) else Null
  {
  }

  /** In edit mode every field other than the id posts back what the form
      showed for the record's own value of that field. */
  lemma EditFormPostsRecordValue(cfg: EntityConfig, item: Value, errors: map<string, string>,
                                 f: FieldConfig, p: Platform)
    requires HasModelledWidget(f.ftype) && f.name != cfg.idField
    ensures var view := RenderField(cfg, item, errors, true, f, p);
      && view.submitName == Some(f.name)
      && !view.widget.DateInput? && !view.widget.DateTimeInput?
      && DecodeField(f.ftype, SubmittedRaw(view.widget), p) == Resubmitted(f, CurrentValue(item, f.name), p)
  {
    var v := CurrentValue(item, f.name);
    var view := RenderField(cfg, item, errors, true, f, p);
    assert view.widget == TypedWidget(f, v, p);
    ResubmitsWhatIsSubmitted(f, v, p, view.widget);
  }

  /** A record's single-line text, shown in the edit form, comes back as
      the same text under the field's name. */
  lemma EditFormKeepsRecordText(cfg: EntityConfig, props: map<string, Value>, errors: map<string, string>,
                                f: FieldConfig, s: string, p: Platform)
    requires f.ftype.StringType? || f.ftype.StatusType? || f.ftype.BadgeType?
    requires f.name != cfg.idField && f.name in props && props[f.name] == Str(s) && NoLineBreaks(s)
    ensures var view := RenderField(cfg, Obj(props), errors, true, f, p);
      && view.submitName == Some(f.name)
      && DecodeField(f.ftype, SubmittedRaw(view.widget), p) == Str(s)
  {
    assert CurrentValue(Obj(props), f.name) == Str(s);
    EditFormPostsRecordValue(cfg, Obj(props), errors, f, p);
    PlainTextRoundTrip(f, s, p);
  }

  /** A field whose `showInForm` is absent is rendered by the form but, when
      no other field of that name is decoded, gets no key in the decoded
      data: what the user types into it is dropped. */
  lemma ShownButNotDecoded(fields: seq<FieldConfig>, i: nat, form: FormData, p: Platform)
    requires i < |fields| && fields[i].showInForm.None?
    requires forall j | 0 <= j < |fields| && fields[j].name == fields[i].name :: !FlagSet(fields[j].showInForm)
    ensures fields[i] in FormFields(fields)
    ensures fields[i].name !in DecodeForm(fields, form, p)
  {
  }

  /** The form and the decoder read `showInForm` differently: every field
      the decoder reads is also shown, and the form shows a field the
      decoder skips exactly when the field leaves `showInForm` out. */
  lemma FormAndDecoderDisagreeOnAbsentFlag(fields: seq<FieldConfig>, i: nat)
    requires i < |fields|
    ensures FlagSet(fields[i].showInForm) ==> fields[i] in FormFields(fields) && fields[i].name in FormFieldNames(fields)
    ensures (fields[i] in FormFields(fields) && !FlagSet(fields[i].showInForm)) <==> fields[i].showInForm.None?
  {
    FlagReadingsDifferOnAbsence(fields[i].showInForm);
  }
}

=== FILE: form_submission.dfy ===
/** What a browser posts for an untouched rendered widget, following the
    HTML Living Standard: value sanitization for text, email and number
    inputs (section 4.10.5.1), the line break handling of text areas
    (sections 4.10.11 and 13.2.6.4.7) and the selectedness rules of a
    single select (section 4.10.7). Client-side constraint validation,
    which may refuse to submit at all, is not modelled. */
module FormSubmission {
  import opened Options
  import opened JsText
  import opened GenericForm

  predicate IsLineBreak(c: char) {
    c == '\n' || c == '\r'
  }

  predicate NoLineBreaks(s: string) {
    forall i | 0 <= i < |s| :: !IsLineBreak(s[i])
  }

  predicate IsAsciiSpace(c: char) {
    c == ' ' || c == '\t' || c == '\n' || c == '\U{0C}' || c == '\r'
  }

  /** Text that neither starts nor ends with ASCII whitespace. */
  predicate Unpadded(s: string) {
    s == "" || (!IsAsciiSpace(s[0]) && !IsAsciiSpace(s[|s| - 1]))
  }

  /** "Strip newlines": every CR and LF removed, everything else kept in order. */
  function StripNewlines(s: string): (r: string)
    ensures NoLineBreaks(r)
    ensures NoLineBreaks(s) ==> r == s
    ensures |r| <= |s|
  {
    if s == [] then []
    else if IsLineBreak(s[0]) then StripNewlines(s[1..])
    else [s[0]] + StripNewlines(s[1..])
  }

  function DropLeadingSpace(s: string): (r: string)
    ensures |r| <= |s| && r == s[|s| - |r|..]
    ensures r == "" || !IsAsciiSpace(r[0])
    ensures s == "" || !IsAsciiSpace(s[0]) ==> r == s
    ensures NoLineBreaks(s) ==> NoLineBreaks(r)
  {
    if s != [] && IsAsciiSpace(s[0]) then DropLeadingSpace(s[1..]) else s
  }

  function DropTrailingSpace(s: string): (r: string)
    ensures r <= s
    ensures r == "" || !IsAsciiSpace(r[|r| - 1])
    ensures s == "" || !IsAsciiSpace(s[|s| - 1]) ==> r == s
    ensures NoLineBreaks(s) ==> NoLineBreaks(r)
  {
    if s != [] && IsAsciiSpace(s[|s| - 1]) then DropTrailingSpace(s[..|s| - 1]) else s
  }

  /** "Strip leading and trailing ASCII whitespace". */
  function StripSurroundingSpace(s: string): (r: string)
    ensures Unpadded(r)
    ensures Unpadded(s) ==> r == s
    ensures NoLineBreaks(s) ==> NoLineBreaks(r)
  {
    var t := DropLeadingSpace(s);
    assert t == "" || t[|t| - 1] == s[|s| - 1];
    DropTrailingSpace(t)
  }

  /** An optional exponent: `e` or `E`, an optional sign, then digits. */
  predicate IsExponentPart(s: string) {
    s == "" ||
      (|s| >= 2 && (s[0] == 'e' || s[0] == 'E') &&
        var t := if s[1] == '+' || s[1] == '-' then s[2..] else s[1..];
        t != "" && AllDigits(t))
  }

  /** An optional fraction (a dot and digits) followed by an optional exponent. */
  predicate IsFractionAndExponent(s: string) {
    if s != "" && s[0] == '.' then
      var d := LeadingDigits(s[1..]);
      d != "" && IsExponentPart(s[1 + |d|..])
    else IsExponentPart(s)
  }

  /** A "valid floating-point number": an optional minus, then digits, a
      fraction (a dot and digits) or both, then an optional exponent. */
  predicate IsFloatText(s: string) {
    var body := if s != "" && s[0] == '-' then s[1..] else s;
    var d := LeadingDigits(body);
    var rest := body[|d|..];
    (d != "" || (rest != "" && rest[0] == '.')) && IsFractionAndExponent(rest)
  }

  /** The integer digits may be left out when a fraction follows, but a dot
      needs digits after it: ".5" and "-.5" are numbers, "5." and "." are
      not. */
  lemma FractionNeedsDigitsAfterTheDot()
    ensures IsFloatText(".5") && IsFloatText("-.5")
    ensures !IsFloatText("5.") && !IsFloatText(".")
  {
    assert LeadingDigits(".5") == "";
    assert LeadingDigits("5") == "5";
    assert LeadingDigits("") == "";
    assert LeadingDigits("5.") == "5";
  }

  /** The decimal text of an integer is a valid floating-point number, so a
      number input keeps it. */
  lemma IntegerTextIsFloatText(n: int)
    ensures IsFloatText(IntToString(n))
  {
    var s := IntToString(n);
    var body := if s != "" && s[0] == '-' then s[1..] else s;
    assert body == NatToString(if n < 0 then -n else n);
    LeadingDigitsOfDigits(body);
    assert body[|body|..] == "";
  }

  /** The HTML parser drops one line break directly after the text area's
      start tag (a CR LF pair counts as one). */
  function TextAreaContent(text: string): (r: string)
    ensures text == "" || !IsLineBreak(text[0]) ==> r == text
  {
    if |text| >= 2 && text[0] == '\r' && text[1] == '\n' then text[2..]
    else if text != "" && IsLineBreak(text[0]) then text[1..]
    else text
  }

  /** Form submission writes every line break of a posted value (CR LF,
      lone CR or lone LF) as CR LF. Of the widgets here only a text area
      and a select's option value can still hold one when posted. */
  function CrLf(s: string): (r: string)
    ensures NoLineBreaks(s) ==> r == s
  {
    if s == [] then []
    else if |s| >= 2 && s[0] == '\r' && s[1] == '\n' then "\r\n" + CrLf(s[2..])
    else if IsLineBreak(s[0]) then "\r\n" + CrLf(s[1..])
    else [s[0]] + CrLf(s[1..])
  }

  /** The value a single select submits: the last option marked selected,
      or the first option when none is, or nothing when it has no options. */
  function LastSelected(options: seq<OptionView>): (r: Option<string>)
    ensures r.None? <==> forall i | 0 <= i < |options| :: !options[i].selected
    ensures r.Some? ==> exists i | 0 <= i < |options| :: options[i].selected && options[i].value == r.value
  {
    if options == [] then None
    else
      var last := options[|options| - 1];
      var prefix := options[..|options| - 1];
      assert forall i | 0 <= i < |prefix| :: prefix[i] == options[i];
      if last.selected then Some(last.value) else LastSelected(prefix)
  }

  /** The "-- Select --" option of a select that is not required. */
  const BlankOption := OptionView("", "-- Select --", false)

  function SelectOptions(blankOption: bool, options: seq<OptionView>): seq<OptionView> {
    (if blankOption then [BlankOption] else []) + options
  }

  function SelectSubmits(blankOption: bool, options: seq<OptionView>): (r: Option<string>)
    ensures r.None? <==> SelectOptions(blankOption, options) == []
  {
    var all := SelectOptions(blankOption, options);
    match LastSelected(all)
    case Some(t) => Some(t)
    case None => if all != [] then Some(all[0].value) else None
  }

  /** With no option marked selected a select submits its first option. */
  lemma NothingSelectedSubmitsFirst(blankOption: bool, options: seq<OptionView>)
    requires forall i | 0 <= i < |options| :: !options[i].selected
    ensures SelectSubmits(blankOption, options) ==
      if blankOption then Some("") else if options != [] then Some(options[0].value) else None
  {
    var all := SelectOptions(blankOption, options);
    assert forall i | 0 <= i < |all| :: !all[i].selected;
  }

  /** When some option is selected and every selected option carries the
      value `t`, the select submits `t`, blank option or not. */
  lemma AgreeingSelectionSubmits(blankOption: bool, options: seq<OptionView>, t: string, k: nat)
    requires k < |options| && options[k].selected
    requires forall i | 0 <= i < |options| && options[i].selected :: options[i].value == t
    ensures SelectSubmits(blankOption, options) == Some(t)
  {
    if blankOption {
      var all := [BlankOption] + options;
      assert all[k + 1] == options[k];
      assert forall i | 1 <= i < |all| :: all[i] == options[i - 1];
      assert LastSelected(all).Some?;
    } else {
      assert SelectOptions(blankOption, options) == options;
    }
  }

  /** What the form posts under the widget's name when the user leaves it
      as rendered: nothing for the locked id and an unchecked checkbox,
      "on" for a checked one, the selected option's value with its line
      breaks written as CR LF, and the sanitized text of the other inputs. Date inputs show a formatted
      date, which is not modelled. */
  function SubmittedRaw(w: Widget): (r: Option<string>)
    requires !w.DateInput? && !w.DateTimeInput?
    ensures w.LockedId? ==> r.None?
    ensures w.Checkbox? ==> (r.Some? <==> w.checked) && (r.Some? ==> r.value == "on")
    ensures w.TextInput? ==> r.Some? && NoLineBreaks(r.value)
    ensures w.EmailInput? ==> r.Some? && NoLineBreaks(r.value) && Unpadded(r.value)
    ensures w.NumberInput? ==> r.Some? && (r.value == "" || IsFloatText(r.value))
    ensures w.TextInput? ==> r == Some(StripNewlines(w.text))
    ensures w.EmailInput? ==> r == Some(StripSurroundingSpace(StripNewlines(w.text)))
    ensures w.NumberInput? ==> r == Some(if IsFloatText(w.text) then w.text else "")
    ensures w.TextArea? ==> r == Some(CrLf(TextAreaContent(w.text)))
    ensures w.SelectBox? ==> (r.Some? <==> SelectSubmits(w.blankOption, w.options).Some?)
    ensures w.SelectBox? && r.Some? ==> r.value == CrLf(SelectSubmits(w.blankOption, w.options).value)
  {
    match w
    case LockedId(_, _) => None
    case TextArea(text, _, _) => Some(CrLf(TextAreaContent(text)))
    case SelectBox(blankOption, options) =>
      var chosen := SelectSubmits(blankOption, options);
      if chosen.Some? then Some(CrLf(chosen.value)) else None
    case Checkbox(checked) => if checked then Some("on") else None
    case NumberInput(text, _) => Some(if IsFloatText(text) then text else "")
    case EmailInput(text, _) => Some(StripSurroundingSpace(StripNewlines(text)))
    case TextInput(text, _) => Some(StripNewlines(text))
  }
}

=== FILE: generic_form.dfy ===
/** The render half of the field-type table: which fields the edit/create
    form shows, which widget each type gets, and what each widget displays
    for the record's current value. Markup and CSS classes are not modelled;
    a widget records only what the user sees and what the form submits. */
module GenericForm {
  import opened Options
  import opened JsText
  import opened JsValue
  import opened AdminTypes

  /** One `<option>` of a select: the submitted text, the caption, and
      whether it starts selected. */
  datatype OptionView = OptionView(value: string, caption: string, selected: bool)

  datatype Widget =
    | LockedId(text: string, note: string)
    | TextArea(text: string, rows: int, placeholder: Option<string>)
    | SelectBox(blankOption: bool, options: seq<OptionView>)
    | Checkbox(checked: bool)
    | NumberInput(text: string, placeholder: Option<string>)
    | EmailInput(text: string, placeholder: Option<string>)
    | DateInput(source: Option<Value>)
    | DateTimeInput(source: Option<Value>)
    | TextInput(text: string, placeholder: Option<string>)

  /** A rendered field: the name it submits under (None when it submits
      nothing), its caption, the required marker, its widget, and the error
      or help line beneath it. */
  datatype FieldView = FieldView(
    submitName: Option<string>,
    caption: string,
    requiredMark: bool,
    widget: Widget,
    error: Option<string>,
    help: Option<string>)

  datatype FormItem = FormItem(fullWidth: bool, view: FieldView)

  datatype FormView = FormView(items: seq<FormItem>, cancelHref: string, submitLabel: string)

  /** The kinds of widget, without their contents. */
  datatype WidgetKind = TextAreaKind | SelectKind | CheckboxKind | NumberKind | EmailKind | DateKind | DateTimeKind | TextKind

  /** The widget table: long text and JSON get a text area, select a
      select, boolean a checkbox, number a number input, email, date and
      datetime their own inputs, and every other type a text input. */
  function WidgetKindFor(t: FieldType): WidgetKind {
    match t
    case TextType => TextAreaKind
    case JsonType => TextAreaKind
    case SelectType => SelectKind
    case BooleanType => CheckboxKind
    case NumberType => NumberKind
    case EmailType => EmailKind
    case DateType => DateKind
    case DateTimeType => DateTimeKind
    case StringType => TextKind
    case StatusType => TextKind
    case BadgeType => TextKind
  }

  function KindOf(w: Widget): Option<WidgetKind> {
    match w
    case LockedId(_, _) => None
    case TextArea(_, _, _) => Some(TextAreaKind)
    case SelectBox(_, _) => Some(SelectKind)
    case Checkbox(_) => Some(CheckboxKind)
    case NumberInput(_, _) => Some(NumberKind)
    case EmailInput(_, _) => Some(EmailKind)
    case DateInput(_) => Some(DateKind)
    case DateTimeInput(_) => Some(DateTimeKind)
    case TextInput(_, _) => Some(TextKind)
  }

  /** The fields the form shows: those whose `showInForm` is not `false`,
      in configuration order. An absent flag counts as shown. */
  function FormFields(fields: seq<FieldConfig>): (r: seq<FieldConfig>)
    ensures |r| <= |fields|
    ensures forall i | 0 <= i < |r| :: FlagNotFalse(r[i].showInForm)
    ensures forall g | g in r :: g in fields
    ensures forall i | 0 <= i < |fields| && FlagNotFalse(fields[i].showInForm) :: fields[i] in r
  {
    if |fields| == 0 then []
    else
      var rest := FormFields(fields[1..]);
      assert forall i | 1 <= i < |fields| :: fields[i] == fields[1..][i - 1];
      if FlagNotFalse(fields[0].showInForm) then [fields[0]] + rest else rest
  }

  /** Filtering distributes over concatenation, so the shown fields keep
      their relative order. */
  lemma {:induction false} FormFieldsAppend(a: seq<FieldConfig>, b: seq<FieldConfig>)
    ensures FormFields(a + b) == FormFields(a) + FormFields(b)
    decreases |a|
  {
    if |a| > 0 {
      assert (a + b)[1..] == a[1..] + b;
      FormFieldsAppend(a[1..], b);
    } else {
      assert a + b == b;
    }
  }

  /** `item[fieldName]` when there is an item, `undefined` otherwise. */
  function CurrentValue(item: Value, fieldName: string): (v: Value)
    ensures !Truthy(item) ==> v == Undefined
    ensures Truthy(item) ==> Prop(item, fieldName).Some? && v == Prop(item, fieldName).value
    ensures Truthy(item) && item.Obj? ==> v == if fieldName in item.props then item.props[fieldName] else Undefined
  {
    if Truthy(item) then Prop(item, fieldName).GetOr(Undefined) else Undefined
  }

  /** The number input's text: empty for `null` and `undefined`, the
      decimal text otherwise, so 0 shows as "0" and is not blanked the way
      the text inputs blank falsy values. */
  function NumberText(v: Value): (s: string)
    ensures Nullish(v) ==> s == ""
    ensures v.Num? ==> s == IntToString(v.n) && s != ""
    ensures v.Str? ==> s == v.s
  {
    if Nullish(v) then "" else ToJsString(v)
  }

  /** The JSON text area's text: pretty-printed JSON for an object or
      array, the text input rule otherwise. */
  function JsonText(v: Value, p: Platform): (s: string)
    ensures IsObjectLike(v) ==> s == p.jsonStringify(v)
    ensures !IsObjectLike(v) ==> s == TextOrEmpty(v)
  {
    if Truthy(v) && IsObjectLike(v) then p.jsonStringify(v) else TextOrEmpty(v)
  }

  /** The select's options in list order, each selected iff the current
      value is strictly equal to its value (no coercion between "1" and 1). */
  function RenderOptions(options: seq<SelectOption>, v: Value): (r: seq<OptionView>)
    ensures |r| == |options|
    ensures forall i | 0 <= i < |r| ::
      && r[i].value == ToJsString(options[i].value.ToValue())
      && r[i].caption == options[i].labelText
      && (r[i].selected <==> v == options[i].value.ToValue())
  {
    if |options| == 0 then []
    else
      var o := options[0];
      [OptionView(ToJsString(o.value.ToValue()), o.labelText, v == o.value.ToValue())]
        + RenderOptions(options[1..], v)
  }

  /** `field.rows || fallback`. */
  function RowsOr(rows: Option<int>, fallback: int): int {
    if rows.Some? && rows.value != 0 then rows.value else fallback
  }

  /** The widget for a field by its type, showing value `v`. */
  function TypedWidget(f: FieldConfig, v: Value, p: Platform): (w: Widget)
    ensures KindOf(w) == Some(WidgetKindFor(f.ftype))
    ensures w.Checkbox? ==> (w.checked <==> Truthy(v))
    ensures w.NumberInput? ==> w.text == NumberText(v)
    ensures (w.EmailInput? || w.TextInput?) ==> w.text == TextOrEmpty(v)
    ensures w.SelectBox? ==> (w.blankOption <==> !FlagSet(f.required))
    ensures (w.DateInput? || w.DateTimeInput?) ==> (w.source.Some? <==> Truthy(v))
    ensures w.TextArea? ==> w.text == if f.ftype.JsonType? then JsonText(v, p) else TextOrEmpty(v)
    ensures w.TextArea? ==>
      w.rows == if f.rows.Some? && f.rows.value != 0 then f.rows.value
                else if f.ftype.JsonType? then 6 else 4
    ensures w.TextArea? && f.ftype.JsonType? ==> w.placeholder.Some? && w.placeholder.value != ""
    ensures w.SelectBox? ==> w.options == RenderOptions(if f.options.Some? then f.options.value else [], v)
  {
    match f.ftype
    case TextType => TextArea(TextOrEmpty(v), RowsOr(f.rows, 4), f.placeholder)
    case SelectType =>
      var options := if f.options.Some? then f.options.value else [];
      SelectBox(!FlagSet(f.required), RenderOptions(options, v))
    case BooleanType => Checkbox(Truthy(v))
    case NumberType => NumberInput(NumberText(v), f.placeholder)
    case EmailType => EmailInput(TextOrEmpty(v), f.placeholder)
    case DateType => DateInput(if Truthy(v) then Some(v) else None)
    case DateTimeType => DateTimeInput(if Truthy(v) then Some(v) else None)
    case JsonType =>
      var placeholder := if f.placeholder.Some? && f.placeholder.value != "" then f.placeholder else Some("Enter valid JSON");
      TextArea(JsonText(v, p), RowsOr(f.rows, 6), placeholder)
    case _ => TextInput(TextOrEmpty(v), f.placeholder)
  }

  /** Renders one field. In edit mode the id field is a disabled text box
      with no name, so it is never submitted; otherwise the widget follows
      the type table, the error is shown when there is one and the help
      text only when there is none. */
  function RenderField(cfg: EntityConfig, item: Value, errors: map<string, string>, isEdit: bool,
                       f: FieldConfig, p: Platform): (r: FieldView)
    ensures r.submitName.None? <==> isEdit && f.name == cfg.idField
    ensures r.submitName.Some? ==> r.submitName.value == f.name
    ensures r.widget.LockedId? <==> isEdit && f.name == cfg.idField
    ensures r.submitName.Some? ==> KindOf(r.widget) == Some(WidgetKindFor(f.ftype))
    ensures r.submitName.Some? ==>
      && (r.error.Some? <==> f.name in errors && errors[f.name] != "")
      && (r.error.Some? ==> r.error.value == errors[f.name])
      && (r.help.Some? <==> r.error.None? && f.helpText.Some? && f.helpText.value != "")
    ensures r.submitName.Some? ==> (r.requiredMark <==> FlagSet(f.required))
    ensures r.submitName.Some? ==> r.widget == TypedWidget(f, CurrentValue(item, f.name), p)
    ensures r.widget.LockedId? ==>
      && r.widget.text == TextOrEmpty(CurrentValue(item, f.name))
      && r.widget.note == if f.name == "id" then "ID cannot be changed" else "Key cannot be changed"
  {
    var v := CurrentValue(item, f.name);
    if isEdit && f.name == cfg.idField then
      var note := if f.name == "id" then "ID cannot be changed" else "Key cannot be changed";
      FieldView(None, f.labelText, false, LockedId(TextOrEmpty(v), note), None, None)
    else
      var error := if f.name in errors && errors[f.name] != "" then Some(errors[f.name]) else None;
      var help := if error.None? && f.helpText.Some? && f.helpText.value != "" then f.helpText else None;
      FieldView(Some(f.name), f.labelText, FlagSet(f.required), TypedWidget(f, v, p), error, help)
  }

  function RenderItems(cfg: EntityConfig, item: Value, errors: map<string, string>, isEdit: bool,
                       fields: seq<FieldConfig>, p: Platform): (r: seq<FormItem>)
    ensures |r| == |fields|
    ensures forall i | 0 <= i < |fields| ::
      && r[i].view == RenderField(cfg, item, errors, isEdit, fields[i], p)
      && (r[i].fullWidth <==> fields[i].ftype.TextType? || fields[i].ftype.JsonType?)
  {
    if |fields| == 0 then []
    else
      var f := fields[0];
      [FormItem(f.ftype.TextType? || f.ftype.JsonType?, RenderField(cfg, item, errors, isEdit, f, p))]
        + RenderItems(cfg, item, errors, isEdit, fields[1..], p)
  }

  /** The whole form: one item per shown field, in order, full width for
      long text and JSON; a cancel link to the list; and a submit button
      reading "Save Changes" when editing, "Create <singular name>" otherwise. */
  function RenderForm(cfg: EntityConfig, item: Value, errors: map<string, string>, isEdit: bool, p: Platform): (r: FormView)
    ensures |r.items| == |FormFields(cfg.fields)|
    ensures forall i | 0 <= i < |r.items| ::
      r.items[i].view == RenderField(cfg, item, errors, isEdit, FormFields(cfg.fields)[i], p)
    ensures r.submitLabel == if isEdit then "Save Changes" else "Create " + cfg.singularName
    ensures r.cancelHref == "/admin/" + cfg.name
  {
    FormView(
      RenderItems(cfg, item, errors, isEdit, FormFields(cfg.fields), p),
      "/admin/" + cfg.name,
      if isEdit then "Save Changes" else "Create " + cfg.singularName)
  }
}

=== FILE: handler_properties.dfy ===
/** Properties that hold across the seven handlers: the authentication
    gate, the client binding that precedes every remote call, and the
    consequences of the decode and validation rules for whole requests. */
module HandlerProperties {
  import opened Options
  import opened JsText
  import opened JsValue
  import opened AdminTypes
  import opened FieldCodec
  import opened Validation
  import opened Auth
  import opened CrudHandlers

  datatype Handler = ListH | ShowH | CreateGetH | CreatePostH | EditGetH | EditPostH | DeleteH

  /** The handler table the engine builds for one entity. */
  function Handle(h: Handler, cfg: EntityConfig, req: Request, remote: Remote, p: Platform): Response {
    match h
    case ListH => List(cfg, req, remote)
    case ShowH => Show(cfg, req, remote)
    case CreateGetH => CreateGet(cfg, req)
    case CreatePostH => CreatePost(cfg, req, remote, p)
    case EditGetH => EditGet(cfg, req, remote)
    case EditPostH => EditPost(cfg, req, remote, p)
    case DeleteH => Delete(cfg, req, remote)
  }

  /** Every handler answers with the login redirect and makes no call
      exactly when the cookie header has no `auth_token=` followed by a
      character other than `;`. */
  lemma AuthGate(h: Handler, cfg: EntityConfig, req: Request, remote: Remote, p: Platform)
    ensures Handle(h, cfg, req, remote, p) == LoginRedirect <==>
      forall i | 0 <= i < |req.cookie.GetOr("")| :: !TokenAt(req.cookie.GetOr(""), i)
  {
    var r := Handle(h, cfg, req, remote, p);
    if Token(req).Some? {
      var token := Token(req).value;
      match h
      case ListH =>
      case ShowH =>
      case CreateGetH =>
      case CreatePostH =>
        var data := SubmittedData(cfg, req, token, p);
        if |ValidateAll(cfg.fields, data)| == 0 {
          assert r.calls != [];
        }
      case EditGetH =>
      case EditPostH =>
        var data := DecodeForm(cfg.fields, req.form, p);
        if |ValidateAll(cfg.fields, data)| > 0 {
          assert r.outcome.EditInvalid? || r.outcome.EditFailed? || r.outcome.Unhandled?;
        } else {
          assert |r.calls| >= 2;
        }
      case DeleteH =>
    }
  }

  /** With a token, the only way to the login page is the list handler's
      rejection: every other redirect (a created record, an updated record,
      the list after a delete) goes to an entity page, and entity pages are
      never the login page. */
  lemma LoginRedirectMeansRejection(h: Handler, cfg: EntityConfig, req: Request, remote: Remote, p: Platform)
    requires Token(req).Some?
    ensures var o := Handle(h, cfg, req, remote, p).outcome;
      (o.Redirect? && o.location == LoginPath) <==>
        h == ListH && remote(0).Threw? && IsAuthRejection(remote(0).thrown)
  {
    match h
    case ListH =>
    case ShowH =>
    case CreateGetH =>
    case CreatePostH => CreatePostAvoidsLogin(cfg, req, remote, p);
    case EditGetH =>
    case EditPostH => EditPostAvoidsLogin(cfg, req, remote, p);
    case DeleteH => DeleteAvoidsLogin(cfg, req, remote);
  }

  lemma CreatePostAvoidsLogin(cfg: EntityConfig, req: Request, remote: Remote, p: Platform)
    requires Token(req).Some?
    ensures var o := CreatePost(cfg, req, remote, p).outcome; !(o.Redirect? && o.location == LoginPath)
  {
    if remote(0).Returned? {
      EntityPathsAreNotLogin(cfg, ToJsString(RouteIdOf(cfg, remote(0).value)));
    }
  }

  lemma EditPostAvoidsLogin(cfg: EntityConfig, req: Request, remote: Remote, p: Platform)
    requires Token(req).Some?
    ensures var o := EditPost(cfg, req, remote, p).outcome; !(o.Redirect? && o.location == LoginPath)
  {
    var token := Token(req).value;
    var ident := RouteParam(cfg, req);
    var data := DecodeForm(cfg.fields, req.form, p);
    var errors := ValidateAll(cfg.fields, data);
    if |errors| == 0 {
      EditSubmitAvoidsLogin(cfg, token, ident, data, remote);
    }
  }

  lemma EditSubmitAvoidsLogin(cfg: EntityConfig, token: string, ident: Option<string>,
                              data: map<string, Value>, remote: Remote)
    ensures var o := EditSubmit(cfg, token, ident, data, remote).outcome; !(o.Redirect? && o.location == LoginPath)
  {
    EntityPathsAreNotLogin(cfg, RouteText(ident));
  }

  lemma DeleteAvoidsLogin(cfg: EntityConfig, req: Request, remote: Remote)
    requires Token(req).Some?
    ensures var o := Delete(cfg, req, remote).outcome; !(o.Redirect? && o.location == LoginPath)
  {
    EntityPathsAreNotLogin(cfg, "");
  }

  /** With a token, the first call any handler makes binds a client built
      from that token, every later binding uses the same token, and at most
      two calls reach the remote service. */
  lemma ClientBoundBeforeRemoteCalls(h: Handler, cfg: EntityConfig, req: Request, remote: Remote, p: Platform)
    requires Token(req).Some?
    ensures BoundToToken(Handle(h, cfg, req, remote, p).calls, Token(req).value)
    ensures RemoteCount(Handle(h, cfg, req, remote, p).calls) <= 2
  {
    match h
    case ListH =>
    case ShowH =>
    case CreateGetH =>
    case CreatePostH =>
    case EditGetH =>
    case EditPostH =>
    case DeleteH =>
  }

  /** Delete goes back to the list whatever the remote service does. */
  lemma DeleteIgnoresRemote(cfg: EntityConfig, req: Request, remote1: Remote, remote2: Remote)
    requires Token(req).Some?
    ensures Delete(cfg, req, remote1) == Delete(cfg, req, remote2)
    ensures Delete(cfg, req, remote1).outcome == Redirect(ListPath(cfg))
  {
  }

  /** A required number field submitted as "0" or as text without any
      digit decodes to 0 or NaN, both falsy, and is reported as missing. */
  lemma RequiredNumberZeroReportedMissing(cfg: EntityConfig, req: Request, remote: Remote, p: Platform, i: int)
    requires Token(req).Some?
    requires 0 <= i < |cfg.fields|
    requires UniquelyNamed(cfg.fields, i)
    requires cfg.fields[i].name != AuthorKey
    requires cfg.fields[i].ftype.NumberType?
    requires FlagSet(cfg.fields[i].showInForm) && FlagSet(cfg.fields[i].required)
    requires FormGet(req.form, cfg.fields[i].name).Some?
    requires var s := FormGet(req.form, cfg.fields[i].name).value;
      s == [DigitChar(0)] || forall k | 0 <= k < |s| :: !IsDigit(s[k])
    ensures var r := CreatePost(cfg, req, remote, p);
      && r.calls == []
      && r.outcome.CreateInvalid?
      && cfg.fields[i].name in r.outcome.errors
      && r.outcome.errors[cfg.fields[i].name] == cfg.fields[i].labelText + " is required"
  {
    var f := cfg.fields[i];
    var token := Token(req).value;
    var decoded := DecodeForm(cfg.fields, req.form, p);
    NumberZeroDecodesFalsy(cfg.fields, req.form, p, i);
    var data := SubmittedData(cfg, req, token, p);
    assert Lookup(data, f.name) == decoded[f.name];
    MissingRequiredReported(cfg.fields, data, i);
  }

  lemma NumberZeroDecodesFalsy(fields: seq<FieldConfig>, form: FormData, p: Platform, i: int)
    requires 0 <= i < |fields| && UniquelyNamed(fields, i)
    requires fields[i].ftype.NumberType? && FlagSet(fields[i].showInForm)
    requires FormGet(form, fields[i].name).Some?
    requires var s := FormGet(form, fields[i].name).value;
      s == [DigitChar(0)] || forall k | 0 <= k < |s| :: !IsDigit(s[k])
    ensures fields[i].name in DecodeForm(fields, form, p)
    ensures !Truthy(DecodeForm(fields, form, p)[fields[i].name])
  {
    var name := fields[i].name;
    var raw := FormGet(form, name);
    assert IsLastFormField(fields, i);
    DecodeFormKeepsLast(fields, form, p, i);
    if raw.value == [DigitChar(0)] {
      ParseIntOfDigit(DigitChar(0));
    } else {
      ParseIntWithoutDigits(raw.value);
    }
  }

  /** With validation passing and the service returning a record whose
      numeric `id` is not 0, create redirects to that record's page. */
  lemma CreateRedirectsToNewRecord(cfg: EntityConfig, req: Request, remote: Remote, p: Platform,
                                   props: map<string, Value>, n: int)
    requires Token(req).Some?
    requires |ValidateAll(cfg.fields, SubmittedData(cfg, req, Token(req).value, p))| == 0
    requires cfg.idField == "id" && cfg.getRouteParam.None?
    requires "id" in props && props["id"] == Num(n) && n != 0
    requires remote(0) == Returned(Obj(props))
    ensures CreatePost(cfg, req, remote, p).outcome == Redirect(RecordPath(cfg, IntToString(n)))
  {
    NumericIdRedirect(cfg, props, n);
  }

  lemma NumericIdRedirect(cfg: EntityConfig, props: map<string, Value>, n: int)
    requires cfg.idField == "id" && cfg.getRouteParam.None?
    requires "id" in props && props["id"] == Num(n) && n != 0
    ensures CreateRedirect(cfg, Obj(props)) == RecordPath(cfg, IntToString(n))
  {
    var result := Obj(props);
    assert Prop(result, "id") == Some(Num(n));
    assert RouteIdOf(cfg, result) == Num(n);
  }

  /** The show page a numeric record's redirect leads to asks the service
      for that same record id: printing and parsing the id are inverse. */
  lemma ShowFetchesRoutedId(cfg: EntityConfig, req: Request, remote: Remote, n: int)
    requires Token(req).Some?
    requires cfg.idField == "id" && cfg.service.hasGetById
    requires req.params == map["id" := IntToString(n)]
    ensures Show(cfg, req, remote).calls == [BindClient(Token(req).value), FetchCall(NumericId(Some(n)))]
  {
    assert RouteParam(cfg, req) == Some(IntToString(n));
    ResolveIdArgInvertsRecordPath(cfg, n, "");
  }

  /** When the update throws, the edit form comes back with the record as
      the service now returns it and the failure's message, not empty. */
  lemma EditUpdateFailureKeepsRecord(cfg: EntityConfig, req: Request, remote: Remote, p: Platform, e: Thrown, record: Value)
    requires Token(req).Some?
    requires |ValidateAll(cfg.fields, DecodeForm(cfg.fields, req.form, p))| == 0
    requires cfg.idField == "id" && cfg.service.hasGetById
    requires remote(0) == Threw(e) && remote(1) == Returned(record)
    ensures EditPost(cfg, req, remote, p).outcome == EditFailed(record, ErrorText(e, "Failed to update " + cfg.singularName))
  {
  }

  /** When the record fetch of a rejected edit throws, the catch fetches
      the record again and shows it with the fetch's error message: the
      validation errors are not shown. */
  lemma EditRejectedFetchFailureDropsErrors(cfg: EntityConfig, req: Request, remote: Remote, p: Platform,
                                            e: Thrown, record: Value)
    requires Token(req).Some?
    requires |ValidateAll(cfg.fields, DecodeForm(cfg.fields, req.form, p))| > 0
    requires cfg.idField == "id" && cfg.service.hasGetById
    requires remote(0) == Threw(e) && remote(1) == Returned(record)
    ensures EditPost(cfg, req, remote, p).outcome == EditFailed(record, ErrorText(e, "Failed to update " + cfg.singularName))
  {
  }

  /** Listing with no `page` or `pageSize` in the query asks for page 1
      with 20 per page. */
  lemma ListDefaults(cfg: EntityConfig, req: Request, remote: Remote)
    requires Token(req).Some?
    requires "page" !in req.query && "pageSize" !in req.query
    ensures List(cfg, req, remote).calls[1] == ListCall(Num(1), Num(20))
  {
    ListFallbackValues();
  }

  /** A page number written in the query is the page the list call asks
      for, whatever the page size. */
  lemma ListForwardsQueryPage(cfg: EntityConfig, req: Request, remote: Remote, n: int)
    requires Token(req).Some?
    requires "page" in req.query && req.query["page"] == IntToString(n)
    ensures List(cfg, req, remote).calls[1].page == Num(n)
    ensures List(cfg, req, remote).outcome.ListPage? ==> List(cfg, req, remote).outcome.page == Num(n)
  {
    ParseIntOfIntToString(n);
  }

  /** A failed create hands back the form decoded afresh: it agrees with
      the data that was sent on every key except `authorId`. */
  lemma CreateFailureValuesAgreeExceptAuthor(cfg: EntityConfig, req: Request, remote: Remote, p: Platform)
    requires Token(req).Some?
    requires CreatePost(cfg, req, remote, p).outcome.CreateFailed?
    ensures var sent := SubmittedData(cfg, req, Token(req).value, p);
      var values := CreatePost(cfg, req, remote, p).outcome.values;
      forall k | k != AuthorKey :: (k in values <==> k in sent) && (k in values ==> values[k] == sent[k])
  {
  }
}

=== FILE: js_text.dfy ===
/** The string primitives of the JavaScript runtime the handlers rely on:
    `String(n)` for integers, `parseInt(s)` with no radix, and
    `String.prototype.includes`. */
module JsText {
  import opened Options

  predicate IsDigit(c: char) {
    '0' <= c <= '9'
  }

  function DigitValue(c: char): (d: nat)
    requires IsDigit(c)
    ensures d < 10
  {
    c as int - '0' as int
  }

  function DigitChar(d: nat): (c: char)
    requires d < 10
    ensures IsDigit(c) && DigitValue(c) == d
  {
    ('0' as int + d) as char
  }

  predicate IsHexDigit(c: char) {
    IsDigit(c) || 'a' <= c <= 'f' || 'A' <= c <= 'F'
  }

  function HexDigitValue(c: char): (d: nat)
    requires IsHexDigit(c)
    ensures d < 16
  {
    if IsDigit(c) then DigitValue(c)
    else if 'a' <= c <= 'f' then c as int - 'a' as int + 10
    else c as int - 'A' as int + 10
  }

  /** The white space `parseInt` skips before the number: the ASCII
      white-space characters, no-break space and the byte-order mark. */
  predicate IsJsSpace(c: char) {
    c == ' ' || c == '\t' || c == '\n' || c == '\r' || c == '\U{0B}' || c == '\U{0C}'
    || c == '\U{A0}' || c == '\U{FEFF}'
  }

  /** `s` without its leading white space. */
  function TrimStart(s: string): (r: string)
    ensures |r| <= |s| && r == s[|s| - |r|..]
    ensures forall i | 0 <= i < |s| - |r| :: IsJsSpace(s[i])
    ensures |r| > 0 ==> !IsJsSpace(r[0])
  {
    if |s| > 0 && IsJsSpace(s[0]) then TrimStart(s[1..]) else s
  }

  /** The longest prefix of `s` made of decimal digits. */
  function LeadingDigits(s: string): (r: string)
    ensures r <= s
    ensures forall i | 0 <= i < |r| :: IsDigit(r[i])
    ensures |r| < |s| ==> !IsDigit(s[|r|])
  {
    if |s| > 0 && IsDigit(s[0]) then [s[0]] + LeadingDigits(s[1..]) else []
  }

  /** The longest prefix of `s` made of hexadecimal digits. */
  function LeadingHexDigits(s: string): (r: string)
    ensures r <= s
    ensures forall i | 0 <= i < |r| :: IsHexDigit(r[i])
    ensures |r| < |s| ==> !IsHexDigit(s[|r|])
  {
    if |s| > 0 && IsHexDigit(s[0]) then [s[0]] + LeadingHexDigits(s[1..]) else []
  }

  predicate AllDigits(s: string) {
    forall i | 0 <= i < |s| :: IsDigit(s[i])
  }

  predicate AllHexDigits(s: string) {
    forall i | 0 <= i < |s| :: IsHexDigit(s[i])
  }

  /** The number a string of decimal digits denotes, most significant first. */
  function DecimalValue(ds: string): nat
    requires AllDigits(ds)
  {
    if |ds| == 0 then 0 else DecimalValue(ds[..|ds| - 1]) * 10 + DigitValue(ds[|ds| - 1])
  }

  /** The number a string of hexadecimal digits denotes, most significant first. */
  function HexValue(ds: string): nat
    requires AllHexDigits(ds)
  {
    if |ds| == 0 then 0 else HexValue(ds[..|ds| - 1]) * 16 + HexDigitValue(ds[|ds| - 1])
  }

  predicate HasHexPrefix(u: string) {
    |u| >= 2 && u[0] == '0' && (u[1] == 'x' || u[1] == 'X')
  }

  /** The unsigned part of `parseInt`: a `0x`/`0X`-prefixed run of
      hexadecimal digits, or else a run of decimal digits, ignoring whatever
      follows; None when the run is empty. */
  function ParseMagnitude(u: string): (r: Option<nat>)
    ensures !HasHexPrefix(u) ==> (r.None? <==> LeadingDigits(u) == [])
  {
    if HasHexPrefix(u) then
      var h := LeadingHexDigits(u[2..]);
      if h == [] then None else Some(HexValue(h))
    else
      var d := LeadingDigits(u);
      if d == [] then None else Some(DecimalValue(d))
  }

  /** `parseInt` after white space: an optional sign, then the magnitude. */
  function ParseSigned(t: string): (r: Option<int>)
    ensures t != [] && t[0] != '-' && t[0] != '+' ==> r == ParseMagnitude(t)
  {
    var negative := |t| > 0 && t[0] == '-';
    var u := if |t| > 0 && (t[0] == '-' || t[0] == '+') then t[1..] else t;
    match ParseMagnitude(u)
    case None => None
    case Some(m) =>
      var value: int := if negative then -(m as int) else m;
      Some(value)
  }

  /** JavaScript's `parseInt(s)` without a radix: skip leading white space,
      read an optional sign, then a `0x`/`0X`-prefixed run of hexadecimal
      digits or else a run of decimal digits, ignoring whatever follows.
      `None` stands for `NaN` (no digit where the number should start). */
  function ParseInt(s: string): (r: Option<int>)
    ensures s != "" && AllDigits(s) ==> r == Some(DecimalValue(s))
    ensures (forall i | 0 <= i < |s| :: !IsDigit(s[i])) ==> r.None?
  {
    SignedOfDigits(s);
    SignedWithoutDigits(s);
    ParseSigned(TrimStart(s))
  }

  lemma SignedOfDigits(s: string)
    ensures s != "" && AllDigits(s) ==> ParseSigned(TrimStart(s)) == Some(DecimalValue(s))
  {
    if s != "" && AllDigits(s) {
      assert IsDigit(s[0]) && !IsJsSpace(s[0]);
      assert TrimStart(s) == s;
      assert ParseSigned(s) == ParseMagnitude(s);
      MagnitudeOfDigits(s);
    }
  }

  lemma SignedWithoutDigits(s: string)
    ensures (forall i | 0 <= i < |s| :: !IsDigit(s[i])) ==> ParseSigned(TrimStart(s)) == None
  {
    if forall i | 0 <= i < |s| :: !IsDigit(s[i]) {
      NoDigitsInSuffix(s, |s| - |TrimStart(s)|);
      SignedOfNoDigits(TrimStart(s));
    }
  }

  lemma NoDigitsInSuffix(s: string, k: nat)
    requires k <= |s| && forall i | 0 <= i < |s| :: !IsDigit(s[i])
    ensures forall i | 0 <= i < |s[k..]| :: !IsDigit(s[k..][i])
  {
    forall i | 0 <= i < |s[k..]|
      ensures !IsDigit(s[k..][i])
    {
      assert s[k..][i] == s[k + i];
    }
  }

  lemma SignedOfNoDigits(t: string)
    requires forall i | 0 <= i < |t| :: !IsDigit(t[i])
    ensures ParseSigned(t) == None
  {
    var u := if |t| > 0 && (t[0] == '-' || t[0] == '+') then t[1..] else t;
    assert forall i | 0 <= i < |u| :: !IsDigit(u[i]);
    assert !HasHexPrefix(u);
  }

  /** `String(n)` for a natural number: its decimal digits, no leading zero. */
  function NatToString(n: nat): (r: string)
    ensures |r| > 0 && AllDigits(r)
    ensures r[0] == '0' ==> n == 0 && |r| == 1
    ensures DecimalValue(r) == n
  {
    if n < 10 then [DigitChar(n)]
    else
      var prefix := NatToString(n / 10);
      var r := prefix + [DigitChar(n % 10)];
      assert r[..|r| - 1] == prefix;
      r
  }

  /** `String(n)` for an integer: a minus sign before the digits of `|n|`
      when `n` is negative. */
  function IntToString(n: int): (r: string)
    ensures |r| > 0
    ensures n < 0 <==> r[0] == '-'
  {
    if n < 0 then "-" + NatToString(-n) else NatToString(n)
  }

  lemma {:induction false} LeadingDigitsOfDigits(s: string)
    requires AllDigits(s)
    ensures LeadingDigits(s) == s
  {
    if |s| > 0 {
      LeadingDigitsOfDigits(s[1..]);
    }
  }

  /** A run of decimal digits is read whole as the magnitude. */
  lemma MagnitudeOfDigits(s: string)
    requires |s| > 0 && AllDigits(s)
    ensures ParseMagnitude(s) == Some(DecimalValue(s))
  {
    assert !HasHexPrefix(s) by {
      if |s| >= 2 {
        assert IsDigit(s[1]);
      }
    }
    LeadingDigitsOfDigits(s);
  }

  /** A plain run of decimal digits parses to the number `n` it denotes. */
  lemma ParseIntOfDigits(s: string, n: nat)
    requires |s| > 0 && AllDigits(s) && DecimalValue(s) == n
    ensures ParseInt(s) == Some(n)
  {
    assert IsDigit(s[0]) && !IsJsSpace(s[0]);
    assert TrimStart(s) == s;
    assert ParseSigned(s) == ParseMagnitude(s);
    MagnitudeOfDigits(s);
  }

  /** Text with no decimal digit anywhere is `NaN`. */
  lemma ParseIntWithoutDigits(s: string)
    requires forall i | 0 <= i < |s| :: !IsDigit(s[i])
    ensures ParseInt(s) == None
  {
    var t := TrimStart(s);
    assert forall i | 0 <= i < |t| :: t[i] == s[|s| - |t| + i];
    var u := if |t| > 0 && (t[0] == '-' || t[0] == '+') then t[1..] else t;
    assert forall i | 0 <= i < |u| :: !IsDigit(u[i]);
    assert !HasHexPrefix(u);
  }

  /** A single decimal digit parses to its value. */
  lemma ParseIntOfDigit(c: char)
    requires IsDigit(c)
    ensures ParseInt([c]) == Some(DigitValue(c))
  {
    assert [c][..0] == [];
    ParseIntOfDigits([c], DigitValue(c));
  }

  /** Two decimal digits parse to the number they denote. */
  lemma ParseIntOfDigitPair(s: string)
    requires |s| == 2 && IsDigit(s[0]) && IsDigit(s[1])
    ensures ParseInt(s) == Some(10 * DigitValue(s[0]) + DigitValue(s[1]))
  {
    var prefix := s[..1];
    assert AllDigits(s) && AllDigits(prefix);
    assert DecimalValue(prefix) == DigitValue(s[0]) by {
      assert prefix[0] == s[0] && prefix[..0] == [];
    }
    ParseIntOfDigits(s, 10 * DigitValue(s[0]) + DigitValue(s[1]));
  }

  /** Reading back what `String(n)` wrote yields `n`: the two are inverse. */
  lemma ParseIntOfIntToString(n: int)
    ensures ParseInt(IntToString(n)) == Some(n)
  {
    var m: nat := if n < 0 then -n else n;
    var digits := NatToString(m);
    if n < 0 {
      var s := "-" + digits;
      assert IntToString(n) == s;
      assert !IsJsSpace(s[0]);
      assert TrimStart(s) == s;
      assert s[1..] == digits;
      MagnitudeOfDigits(digits);
      assert ParseSigned(s) == Some(n);
    } else {
      assert IntToString(n) == digits;
      ParseIntOfDigits(digits, m);
    }
  }

  /** Distinct integers print differently. */
  lemma IntToStringInjective(a: int, b: int)
    requires IntToString(a) == IntToString(b)
    ensures a == b
  {
    ParseIntOfIntToString(a);
    ParseIntOfIntToString(b);
  }

  /** `sub` occurs in `s` starting at index `i`. */
  predicate OccursAt(s: string, sub: string, i: int) {
    0 <= i <= |s| - |sub| && s[i..i + |sub|] == sub
  }

  /** `s.includes(sub)`. */
  predicate Contains(s: string, sub: string) {
    exists i | 0 <= i <= |s| - |sub| :: OccursAt(s, sub, i)
  }

  /** Text placed between any two texts is contained in the result. */
  lemma ContainsInfix(before: string, sub: string, after: string)
    ensures Contains(before + sub + after, sub)
  {
    var s := before + sub + after;
    assert s[|before|..|before| + |sub|] == sub;
    assert OccursAt(s, sub, |before|);
  }

  /** The longest prefix of `s` that does not contain `stop`. */
  function RunUntil(s: string, stop: char): (r: string)
    ensures r <= s
    ensures stop !in r
    ensures |r| < |s| ==> s[|r|] == stop
  {
    if |s| > 0 && s[0] != stop then [s[0]] + RunUntil(s[1..], stop) else []
  }
}

=== FILE: js_value.dfy ===
/** The JavaScript values that flow through the admin engine: raw form
    strings, decoded field values, remote records and route identifiers.
    Numbers are the integers `parseInt` yields plus `NaN`; objects and
    arrays are what `JSON.parse` and the remote service produce. */
module JsValue {
  import opened Options
  import opened JsText

  datatype Value =
    | Null
    | Undefined
    | Str(s: string)
    | Num(n: int)
    | NaN
    | Bool(b: bool)
    | Obj(props: map<string, Value>)
    | Arr(items: seq<Value>)

  /** JavaScript truthiness: `null`, `undefined`, `""`, `0`, `NaN` and
      `false` are falsy, everything else (every object and array included)
      is truthy. */
  predicate Truthy(v: Value) {
    match v
    case Null => false
    case Undefined => false
    case NaN => false
    case Str(s) => s != ""
    case Num(n) => n != 0
    case Bool(b) => b
    case Obj(_) => true
    case Arr(_) => true
  }

  /** The six falsy values of JavaScript, and no others. */
  lemma FalsyValues(v: Value)
    ensures !Truthy(v) <==>
      v == Null || v == Undefined || v == NaN || v == Str("") || v == Num(0) || v == Bool(false)
  {
  }

  /** `v === null || v === undefined`. */
  predicate Nullish(v: Value) {
    v.Null? || v.Undefined?
  }

  /** `typeof v === "object"` for a non-null value. */
  predicate IsObjectLike(v: Value) {
    v.Obj? || v.Arr?
  }

  /** `String(v)`, also the text a template literal `${v}` inserts. An
      array prints its elements joined with commas, `null` and `undefined`
      elements as empty text. */
  function ToJsString(v: Value): (r: string)
    ensures v.Str? ==> r == v.s
    ensures v.Num? ==> ParseInt(r) == Some(v.n)
    ensures r == "" ==> v == Str("") || v.Arr?
    decreases v, 1
  {
    match v
    case Null => "null"
    case Undefined => "undefined"
    case Str(s) => s
    case Num(n) =>
      ParseIntOfIntToString(n);
      IntToString(n)
    case NaN => "NaN"
    case Bool(b) => if b then "true" else "false"
    case Obj(_) => "[object Object]"
    case Arr(items) => JoinElements(items)
  }

  function JoinElements(items: seq<Value>): string
    decreases items, 0
  {
    if |items| == 0 then ""
    else
      var first := if Nullish(items[0]) then "" else ToJsString(items[0]);
      if |items| == 1 then first else first + "," + JoinElements(items[1..])
  }

  /** `String(v || "")`: the text inputs' display rule. */
  function TextOrEmpty(v: Value): (r: string)
    ensures !Truthy(v) ==> r == ""
    ensures v.Str? ==> r == v.s
  {
    if Truthy(v) then ToJsString(v) else ""
  }

  /** Property read `v[key]`: `None` when it throws (a read on `null` or
      `undefined`); a missing key reads as `undefined`. Primitives and
      arrays are read as having no named properties. */
  function Prop(v: Value, key: string): (r: Option<Value>)
    ensures r.None? <==> Nullish(v)
    ensures v.Obj? && key in v.props ==> r == Some(v.props[key])
  {
    match v
    case Null => None
    case Undefined => None
    case Obj(props) => Some(if key in props then props[key] else Undefined)
    case _ => Some(Undefined)
  }

  /** The runtime's foreign functions, left uninterpreted: `JSON.parse`
      (None when it throws), `JSON.stringify(v, null, 2)` and `atob` (None
      when the input is not base64). */
  datatype Platform = Platform(
    jsonParse: string -> Option<Value>,
    jsonStringify: Value -> string,
    atob: string -> Option<string>)
}

=== FILE: options.dfy ===
/** A present-or-absent value, used for every optional property and every
    foreign call that may fail (a throw becomes None). */
module Options {

  datatype Option<+T> = None | Some(value: T) {

    /** The wrapped value, or `default` when absent. */
    function GetOr(default: T): T {
      match this
      case Some(v) => v
      case None => default
    }
  }
}

=== FILE: validation.dfy ===
/** The collect-all validation pass the create and edit handlers run over
    every configured field, form field or not. */
module Validation {
  import opened Options
  import opened JsValue
  import opened AdminTypes

  /** `data[name]`, `undefined` when the key is missing. */
  function Lookup(data: map<string, Value>, name: string): (v: Value)
    ensures name !in data ==> v == Undefined
  {
    if name in data then data[name] else Undefined
  }

  function RequiredMessage(f: FieldConfig): string {
    f.labelText + " is required"
  }

  /** What a custom check reports, with an empty message read as no error
      (the handler only records a truthy message). */
  function CustomError(f: FieldConfig, v: Value): (r: Option<string>)
    ensures r.Some? ==> r.value != "" && f.validate.Some?
  {
    match f.validate
    case None => None
    case Some(check) =>
      match check(v)
      case Some(m) => if m != "" then Some(m) else None
      case None => None
  }

  /** The one message validation records for field `f` on `data`, if any:
      the required message when the value is falsy, else the custom check's
      message when the value is truthy. */
  function FieldError(f: FieldConfig, data: map<string, Value>): (r: Option<string>)
    ensures r.Some? && !Truthy(Lookup(data, f.name)) ==> FlagSet(f.required) && r == Some(RequiredMessage(f))
    ensures r.Some? && Truthy(Lookup(data, f.name)) ==> r == CustomError(f, Lookup(data, f.name))
    ensures FlagSet(f.required) && !Truthy(Lookup(data, f.name)) ==> r == Some(RequiredMessage(f))
  {
    var v := Lookup(data, f.name);
    if FlagSet(f.required) && !Truthy(v) then Some(RequiredMessage(f))
    else if Truthy(v) then CustomError(f, v)
    else None
  }

  /** Field `i` reports an error and no later field of the same name does,
      so its message is the one that is kept. */
  predicate IsLastErring(fields: seq<FieldConfig>, data: map<string, Value>, i: int)
    requires 0 <= i < |fields|
  {
    && FieldError(fields[i], data).Some?
    && forall j | i < j < |fields| :: FieldError(fields[j], data).Some? ==> fields[j].name != fields[i].name
  }

  function ErringNames(fields: seq<FieldConfig>, data: map<string, Value>): set<string> {
    set i | 0 <= i < |fields| && FieldError(fields[i], data).Some? :: fields[i].name
  }

  /** One step of the loop, written as the two checks the handler makes in
      sequence: the required check, then the custom check. */
  function CheckField(errors: map<string, string>, f: FieldConfig, data: map<string, Value>): map<string, string> {
    var v := Lookup(data, f.name);
    var afterRequired := if FlagSet(f.required) && !Truthy(v) then errors[f.name := RequiredMessage(f)] else errors;
    if f.validate.Some? && Truthy(v) then
      match CustomError(f, v)
      case Some(m) => afterRequired[f.name := m]
      case None => afterRequired
    else afterRequired
  }

  /** The required check and the custom check never both fire for one
      field, so each step records at most the field's one message. */
  lemma CheckFieldRecordsFieldError(errors: map<string, string>, f: FieldConfig, data: map<string, Value>)
    ensures FieldError(f, data).None? ==> CheckField(errors, f, data) == errors
    ensures FieldError(f, data).Some? ==> CheckField(errors, f, data) == errors[f.name := FieldError(f, data).value]
  {
  }

  /** Runs every field's checks in field order and collects every message:
      the error map has a key for each field that fails, and no message
      is empty. */
  function ValidateAll(fields: seq<FieldConfig>, data: map<string, Value>): (errors: map<string, string>)
    ensures errors.Keys == ErringNames(fields, data)
    ensures forall k | k in errors :: errors[k] != ""
  {
    if |fields| == 0 then map[]
    else
      var f := fields[|fields| - 1];
      var before := ValidateAll(fields[..|fields| - 1], data);
      ErringNamesSnoc(fields, data);
      CheckFieldRecordsFieldError(before, f, data);
      CheckField(before, f, data)
  }

  lemma ErringNamesSnoc(fields: seq<FieldConfig>, data: map<string, Value>)
    requires |fields| > 0
    ensures var f := fields[|fields| - 1];
      ErringNames(fields, data) ==
        ErringNames(fields[..|fields| - 1], data) + (if FieldError(f, data).Some? then {f.name} else {})
  {
    var prefix := fields[..|fields| - 1];
    assert forall i | 0 <= i < |prefix| :: prefix[i] == fields[i];
  }

  /** The message kept under a name is that of the last failing field of
      that name. */
  lemma {:induction false} ValidateAllKeepsLast(fields: seq<FieldConfig>, data: map<string, Value>, i: int)
    requires 0 <= i < |fields| && IsLastErring(fields, data, i)
    ensures fields[i].name in ValidateAll(fields, data)
    ensures ValidateAll(fields, data)[fields[i].name] == FieldError(fields[i], data).value
  {
    var prefix := fields[..|fields| - 1];
    var f := fields[|fields| - 1];
    var before := ValidateAll(prefix, data);
    assert ValidateAll(fields, data) == CheckField(before, f, data);
    CheckFieldRecordsFieldError(before, f, data);
    if i < |prefix| {
      var name := fields[i].name;
      assert FieldError(f, data).Some? ==> f.name != name;
      assert prefix[i] == fields[i];
      assert IsLastErring(prefix, data, i) by {
        assert forall j | i < j < |prefix| :: prefix[j] == fields[j];
      }
      ValidateAllKeepsLast(prefix, data, i);
    }
  }

  /** Validation passes exactly when no field has an error. */
  lemma ValidationPassesIff(fields: seq<FieldConfig>, data: map<string, Value>)
    ensures |ValidateAll(fields, data)| == 0 <==> forall i | 0 <= i < |fields| :: FieldError(fields[i], data).None?
  {
    var errors := ValidateAll(fields, data);
    if exists i | 0 <= i < |fields| :: FieldError(fields[i], data).Some? {
      var i :| 0 <= i < |fields| && FieldError(fields[i], data).Some?;
      assert fields[i].name in errors;
    }
  }

  /** No other field shares field `i`'s name. */
  predicate UniquelyNamed(fields: seq<FieldConfig>, i: int)
    requires 0 <= i < |fields|
  {
    forall j | 0 <= j < |fields| && j != i :: fields[j].name != fields[i].name
  }

  /** Every required field whose value is falsy is reported under its
      name, whatever the other fields report: validation does not stop at
      the first failure. */
  lemma MissingRequiredReported(fields: seq<FieldConfig>, data: map<string, Value>, i: int)
    requires 0 <= i < |fields| && UniquelyNamed(fields, i)
    requires FlagSet(fields[i].required) && !Truthy(Lookup(data, fields[i].name))
    ensures fields[i].name in ValidateAll(fields, data)
    ensures ValidateAll(fields, data)[fields[i].name] == RequiredMessage(fields[i])
  {
    assert IsLastErring(fields, data, i);
    ValidateAllKeepsLast(fields, data, i);
  }
}
